=== FILE: README.md ===
# foodgram core, modelled in Dafny

foodgram is a recipe-sharing backend built on Django and Django REST framework. Users publish recipes. A recipe has tags and ingredient lines with amounts. Users mark recipes as favorites, put them in a shopping cart, subscribe to other authors, and download a shopping list. The list adds up the ingredients of every recipe in the cart.

The repository holds three near-copies of the same app:

- `backend/api`;
- `backend/recipes/api`;
- `backend/recipes` itself, with its own views and serializers.

This project models the pure logic under their HTTP and ORM plumbing. Each copy gets its own function, so every variant can be read against its own lines:

| module | file | what it holds |
|---|---|---|
| `Common` | common.dfy | ids, `Option`, the viewer, the `Outcome` a view answers with, `Distinct`/`Elems` (`len(x) == len(set(x))`) |
| `Text` | text.dfy | Python string behaviour the code leans on: `str(n)`, `int(s)`, `str.strip()`, `sorted()` on strings, `'\n'.join`, case-insensitive prefix |
| `Models` | models.dfy | the database as one immutable `Store`: users, tags, ingredients, recipes with their tag set and lines, and the favorite, cart and follow tables as sets of pairs. `Valid` collects the constraints the models declare. `Destroy` is the delete endpoint with its cascade |
| `Aggregation` | aggregation.dfy | the grouping pass of the shopping-list download: an insertion-ordered `name -> (sum, last unit)` dictionary, with an independent description (`Summarizes`) and the proof that the fold meets it |
| `ShoppingList` | shopping_list.dfy | the three `download_shopping_cart` versions and the rendered text document |
| `Relations` | relations.dfy | the favorite/cart toggles (`handle_add_remove` and the backend/recipes copies) and the three subscribe views |
| `Validation` | validation.dfy | the recipe-write validation of the three serializers: the field-level stage first, then `validate` |
| `Associations` | associations.dfy | what `create`/`update` do to a recipe's tags and lines |
| `Filters` | filters.dfy | the `is_favorited`/`is_in_shopping_cart` recipe filters and the ingredient name filter |
| `FollowRecipes` | follow_recipes.dfy | the `recipes_limit` cut in the three `FollowSerializer.get_recipes` |
| `Usernames` | usernames.dfy | the username character class of the serializers and of the model field |

A view's HTTP answer is an `Outcome`. The answer is either `Ok(new store)` or `Fail(reason)`: 404, 403, "already in", "not in", self-follow, and so on. A failure leaves the store as it was, because every failing branch fails before it writes.

A recipe write goes through two stages, as Django REST framework runs them:

1. The field-level checks. These are the required keys of a full write, the character fields built from the model (a name of 1 to 256 characters once stripped, a sent description that is not blank once stripped), `cooking_time >= 1`, and, in backend/api, `validate_ingredients` and `validate_tags`. Their errors are collected into a map keyed by field.
2. The object-level `validate`. It runs only when the map from stage 1 is empty.

The `validate` of the two backend/recipes serializers starts with the author check, so a non-author is refused before any check on the body. A field error such as `cooking_time = 0` is still reported before the author check. That is the framework's order, and the model follows it.

## Model

| member | source | states |
|---|---|---|
| `Aggregation.TallySummarizes` | backend/api/views.py:279-285 | after the loop over the cart rows, the dictionary has exactly one entry per ingredient name that occurs. The entries follow the order in which each name first appears. Each entry holds the sum of all amounts for that name and the unit of its last row |
| `Aggregation.TallyLookup` | backend/api/views.py:282-285 | looking a name up in the finished dictionary finds an entry exactly when some row has that name. The entry found holds that name's sum and last-seen unit |
| `Aggregation.TwoRecipesAddUp` | backend/recipes/api/views.py:273-277 | one ingredient in two cart recipes gives one entry. Its amount is the sum of the two amounts and its unit is the second row's |
| `ShoppingList.Lines` | backend/api/views.py:291-300 | the lines of the document, position by position: the title, the recipes heading, one bullet per recipe, the ingredients heading, then one `bullet name: amount unit` line per entry in dictionary order |
| `ShoppingList.ApiSummary` | backend/api/views.py:270-288 | the recipes listed are strictly sorted and each appears once. They are exactly the recipes that contributed an ingredient row. The totals meet the grouping description |
| `ShoppingList.ApiEmptyCartGivesHeadings` | backend/api/views.py:275-300 | an empty cart is no error: the document is the three headings joined by newlines |
| `ShoppingList.TwoRecipeCart` | backend/api/views.py:279-300 | worked example. Recipes X (carrot 1 g, salt 2 g) and Y (carrot 4 g) are listed as X, Y, with carrot 5 g before salt 2 g |
| `ShoppingList.SortNames` | backend/recipes/api/views.py:285-286 | `sorted()` of the set of recipe names: strictly ascending, with exactly the set's elements |
| `ShoppingList.RecipesApiDownload` | backend/recipes/api/views.py:260-296 | the row-by-row loop of this copy, with its dictionary and set, produces the same document as the backend/api definition on every cart |
| `ShoppingList.RecipesSummary` | backend/recipes/views.py:290-331 | an empty cart is refused with an error, and only an empty cart is. Otherwise every cart recipe is listed, sorted, including recipes with no ingredient rows, and the list holds only cart recipes. The totals meet the grouping description over all rows of all cart recipes |
| `ShoppingList.VariantsAgree` | backend/recipes/views.py:309-319 | on a non-empty cart the two row-walking versions produce the same totals. backend/api lists only the recipes that contributed a row. The two recipe lists coincide when every cart recipe has ingredients |
| `Text.SortedSet` | backend/api/views.py:294-295 | `sorted(set(names))` is strictly ascending and holds the same elements |
| `Text.SortedUnique` | backend/recipes/views.py:324-325 | two strictly sorted lists with the same elements are equal, so the sorted recipe section does not depend on the order in which the set was built |
| `Text.ShowNatRoundTrip` | backend/api/views.py:298 | the amount printed by the f-string reads back as the same number |
| `Text.PyIntNeedsADigit` | backend/recipes/serializers.py:130-133 | `int(s)` succeeds only on a string that holds a digit |
| `Models.DeleteRecipe` | backend/recipes/models.py:138-172 | deleting a recipe removes it together with its lines, and every favorite and cart row pointing at it. Other recipes, users, catalogues and follows are unchanged |
| `Models.Destroy` | backend/recipes/api/views.py:168-182 | an anonymous DELETE is refused as unauthenticated before anything else. For a signed-in user, an unknown recipe gives 404 and a requester who is not the author gets 403, and the recipe stays. Deletion succeeds exactly for the author, and the result is the full cascade of `DeleteRecipe` |
| `Models.DestroyKeepsValid` | backend/recipes/models.py:88-154 | the cascade keeps every declared constraint: foreign keys, amount and cooking time at least 1, and unique names and slugs |
| `Relations.HandleAddRemove` | backend/api/views.py:308-336 | POST succeeds exactly when the pair is absent and adds it; otherwise "already in". DELETE succeeds exactly when the pair is present and removes it; otherwise "not in". No other pair changes |
| `Relations.ApiToggle` | backend/api/views.py:208-217 | the favorite and cart actions: 404 for an unknown recipe, then the add or remove on the matching table. Nothing but that table changes, and in it only that pair |
| `Relations.AddThenRemove` | backend/recipes/api/views.py:299-327 | adding a pair and then removing it gives back the table it started from |
| `Relations.RemoveThenAdd` | backend/api/views.py:328-336 | removing a present pair and then adding it again gives back the same table |
| `Relations.RepeatFails` | backend/recipes/api/views.py:300-307 | a second identical POST fails with "already in", and a second identical DELETE with "not in" |
| `Relations.ApiToggleKeepsValid` | backend/recipes/models.py:164-181 | a toggle by an existing user keeps every store constraint |
| `Relations.LookupRecipe` | backend/recipes/views.py:194 | `get_object_or_404(Recipe, pk=pk)` finds a recipe exactly when `pk` is given and names a stored recipe, and gives 404 otherwise |
| `Relations.ToggleAgrees` | backend/recipes/views.py:214-225 | "exists, then delete" and "delete, then count" answer alike. On every input the backend/recipes toggle equals the `handle_add_remove` one |
| `Relations.RecipesViewsCart` | backend/recipes/views.py:227-266 | the cart action of backend/recipes/views.py equals the backend/api cart action on every input |
| `Relations.RecipesViewsFavoriteAsWritten` | backend/recipes/views.py:187-194 | declared with `detail=False`, the favorite action gets no recipe id and answers 404 for every request |
| `Relations.RecipesViewsFavorite` | backend/recipes/views.py:192-225 | as a detail route, the favorite action equals the backend/api favorite action on every input |
| `Relations.FavoriteAsWrittenMissesRecipe` | backend/recipes/views.py:187-194 | for an existing recipe not yet favorited, the action as written answers 404, while the detail-route version adds it |
| `Relations.ValidateFollow` | backend/api/serializers.py:107-126 | the checks run in order: no target, then following oneself, then an existing subscription. The validation passes exactly for a new subscription to another user |
| `Relations.Unsubscribe` | backend/recipes/api/views.py:100-111 | unsubscribing succeeds exactly when the subscription exists, removes only that row, and otherwise answers "not subscribed" |
| `Relations.ApiSubscribeWith` | backend/api/views.py:71-102 | 404 for an unknown user. POST runs the serializer checks and inserts the row; DELETE unsubscribes |
| `Relations.ApiSubscribeAsWritten` | backend/api/views.py:75-89 | as written, POST to an existing user always fails with "no target", because the view never hands the serializer its target |
| `Relations.ApiSubscribeFixed` | backend/api/serializers.py:107-131 | with the target handed over, POST succeeds exactly for a new subscription to another user and adds only that row |
| `Relations.ApiSubscribeNeverCreates` | backend/api/views.py:75-89 | for a new subscription to another existing user, the view as written refuses and the fixed view creates the row |
| `Relations.ValidateFollowing` | backend/recipes/api/serializers.py:105-116 | refuses following oneself, then an existing subscription, and passes exactly the rest |
| `Relations.RecipesApiSubscribeAsWritten` | backend/recipes/api/views.py:80-98 | as written, POST to an existing user always ends in an integrity error, because the submitted target is dropped and the row is saved without a user or a target |
| `Relations.RecipesApiSubscribe` | backend/recipes/api/views.py:76-111 | with the target kept, POST succeeds exactly for a new subscription to another user and adds only that row. DELETE succeeds exactly when the row exists and removes only it |
| `Relations.RecipesViewsSubscribe` | backend/recipes/views.py:72-112 | 404 for an unknown user. Following oneself is refused for both verbs, before any table is read. Then POST refuses an existing subscription and otherwise adds it, and DELETE refuses a missing one and otherwise removes it |
| `Relations.SubscribeVariantsAgree` | backend/recipes/views.py:81-112 | once mended, the three subscribe views reach the same store on every input. They differ only in the error for unsubscribing from oneself |
| `Relations.SubscribeKeepsInvariants` | backend/recipes/models.py:208-227 | no successful subscribe or unsubscribe lets anyone follow themselves or breaks a foreign key |
| `Relations.SubscribeThenUnsubscribe` | backend/recipes/views.py:87-112 | subscribing and then unsubscribing restores the store |
| `Validation.IsInt` | backend/recipes/serializers.py:321-324 | `isinstance(amount, int)` holds for integers and for booleans, and for nothing else |
| `Validation.PyInt` | backend/recipes/api/serializers.py:365-373 | `int(amount)` keeps an int, turns a bool into 0 or 1, cuts a float toward zero, and refuses `None`, lists and objects |
| `Validation.ApiCoerce` | backend/api/serializers.py:282-286 | a string becomes a number exactly when it is a digit string. An int or bool is kept. Whatever is accepted has the value `int()` would give |
| `Validation.ValidateTags` | backend/api/serializers.py:302-312 | tags pass exactly when there is at least one and none repeats. An empty list gives "no tags" |
| `Validation.NameError` | backend/recipes/models.py:112-115 | the name field built from `Recipe.name` passes exactly when the stripped value is non-empty and at most 256 characters long. A value that strips to nothing is the blank error |
| `Validation.CommonFieldErrors` | backend/recipes/api/serializers.py:384-390 | a full write must send the name, ingredients, tags and cooking time. A sent name that fails its checks is an error, and so is a sent cooking time below 1. The text is never required, and a sent text that strips to nothing is the blank error |
| `Validation.CommonFieldErrorsEmpty` | backend/recipes/models.py:112-123 | the shared field stage passes exactly when the name passes, a sent text is not blank, a full write sends the required keys, and a sent cooking time is at least 1 |
| `Validation.ApiItemError` | backend/api/serializers.py:272-293 | one ingredient item passes exactly when its ingredient is there and its amount becomes an int of at least 1 |
| `Validation.ApiFirstItemError` | backend/api/serializers.py:272-293 | the loop raises the error of the first failing item, and passes exactly when every item passes |
| `Validation.ValidateIngredientsApi` | backend/api/serializers.py:264-300 | ingredients pass exactly when the list is non-empty, every item passes, and no id repeats. "Duplicate" is reported only once every item has passed |
| `Validation.ApiFieldErrors` | backend/api/serializers.py:264-312 | the ingredients and tags fields are in error exactly when missing from a full write or refused by their validators. The text is in error exactly when it is sent blank |
| `Validation.ApiValidate` | backend/api/serializers.py:255-262 | field errors are reported first, as they are, and a refusal names the text exactly when a blank text was sent. With none, a non-author is refused with permission denied, and permission is denied only to a non-author |
| `Validation.ApiAcceptedIff` | backend/api/serializers.py:255-312 | backend/api accepts a write exactly when it meets every stated requirement: author, name, a sent text that is not blank, required keys, cooking time, ingredient items and amounts, unique ids and tags |
| `Validation.TextBlankMeans` | backend/recipes/api/serializers.py:375-381 | the description counts as missing exactly when it is absent or every character is one `str.strip()` removes: blank, tab, line feed, carriage return, vertical tab, form feed, or a separator 0x1C to 0x1F |
| `Validation.SeparatorTextIsBlank` | backend/recipes/api/serializers.py:375-381 | a description of separator characters only (0x1C, 0x1F) counts as missing |
| `Validation.RecipesApiLoop` | backend/recipes/api/serializers.py:350-381 | the loop's only errors are a repeated id, a bad amount or a blank text, and a text error means the text is blank |
| `Validation.RecipesApiLoopPasses` | backend/recipes/api/serializers.py:350-381 | the loop passes exactly when no id repeats or was seen before, every amount passes `int()` at 1 or more, and, given any item, the text is not blank |
| `Validation.RecipesApiObject` | backend/recipes/api/serializers.py:327-382 | `validate` refuses a non-author first and otherwise reports exactly one error. No ingredients gives the ingredients error. Then missing or repeated tags give the tags error. Then the write passes exactly when ids are distinct, every amount passes `int()` at 1 or more, and the text is not blank. A first amount `int()` refuses gives the ingredients error. A good first amount with a blank text gives the text error, whatever the later items hold |
| `Validation.RecipesApiLoopFirst` | backend/recipes/api/serializers.py:350-381 | the first item's amount is checked before the description, and the description is checked right after the first item passes. With a non-blank text every loop error is an ingredients error |
| `Validation.RecipesApiValidate` | backend/recipes/api/serializers.py:329-331 | field errors are reported first, as they are, so a sent blank text is the field's blank error even for a non-author. Once the field-level checks pass, a non-author is refused whatever else the body holds |
| `Validation.RecipesApiFieldErrorsEmpty` | backend/recipes/api/serializers.py:229-230 | the field stage of backend/recipes/api passes exactly when the shared one does and a full write sends both booleans |
| `Validation.RecipesApiFieldErrors` | backend/recipes/api/serializers.py:229-230 | on a full write `is_favorited` and `is_in_shopping_cart` are required, as writable boolean fields. Every other field error is the shared one |
| `Validation.RecipesApiAcceptedIff` | backend/recipes/api/serializers.py:229-390 | backend/recipes/api accepts a write exactly when it meets every stated requirement, the name's included. Amounts are read through `int()`, the text is not blank, and a full write sends both booleans |
| `Validation.RecipesApiFullWriteCarriesMarks` | backend/recipes/api/serializers.py:229-230 | every full write backend/recipes/api accepts has sent `is_favorited` and `is_in_shopping_cart` |
| `Validation.MarksOnlyRequiredByRecipesApi` | backend/recipes/api/serializers.py:229-230 | a full write without `is_favorited` is refused by backend/recipes/api with an error on that field |
| `Validation.RecipesLoop` | backend/recipes/serializers.py:312-324 | the loop's only errors are a repeated id and an amount that is not an int of at least 1 |
| `Validation.RecipesLoopPasses` | backend/recipes/serializers.py:312-324 | the loop passes exactly when no id repeats or was seen before and every amount is an int of at least 1 |
| `Validation.RecipesObject` | backend/recipes/serializers.py:289-331 | `validate` refuses a non-author first and otherwise reports exactly one error. No ingredients gives the ingredients error. Then missing or repeated tags give the tags error. Then a repeated id or an amount that is not an int of at least 1 gives the ingredients error. Only after that does a blank text give the text error, and otherwise the write passes |
| `Validation.RecipesValidate` | backend/recipes/serializers.py:291-293 | field errors are reported first, as they are, so a sent blank text is the field's blank error even for a non-author. Once the field-level checks pass, a non-author is refused |
| `Validation.RecipesAcceptedIff` | backend/recipes/serializers.py:289-339 | backend/recipes accepts a write exactly when it meets every stated requirement, the name's included, with amounts that are already ints |
| `Validation.NameRequiredEverywhere` | backend/api/serializers.py:232-233 | a full write without a name is refused by all three versions with a required error on the name, whoever sends it |
| `Validation.BlankTextRefusedEverywhere` | backend/recipes/models.py:116-119 | a sent text that strips to nothing is refused by all three versions with the blank error on the text, whoever sends it |
| `Validation.NoTextOnlyWhenAbsent` | backend/recipes/serializers.py:326-329 | the description error of the two `validate` methods is only ever reported for a write that leaves the text out |
| `Validation.RecipesVersionsNeedIngredientsAndTags` | backend/recipes/serializers.py:295-310 | both backend/recipes versions read the raw body, so they accept no write without ingredients and tags, partial or not |
| `Validation.StrictAcceptsLess` | backend/recipes/serializers.py:321-324 | every body the strict-int `validate` accepts, the `int()` `validate` accepts too. The whole write carries over when it is partial or sends both booleans |
| `Validation.BlankTextOrder` | backend/recipes/serializers.py:312-329 | with a good first item, a zero amount after it and a blank text, backend/recipes/api's `validate` reports the text and backend/recipes's reports the amount. Over a whole write this happens when the text is left out |
| `Validation.FloatAmount` | backend/recipes/api/serializers.py:365-368 | a 2.5 amount passes `int()` as 2, and is no int for `isinstance`, so backend/api and backend/recipes refuse it |
| `Validation.DigitStringApi` | backend/api/serializers.py:283-284 | a full write whose amount is the string "5" is accepted by backend/api |
| `Validation.DigitStringRecipesApi` | backend/recipes/api/serializers.py:365-368 | the same write is accepted by backend/recipes/api |
| `Validation.DigitStringRecipes` | backend/recipes/serializers.py:321-324 | the same write is refused by backend/recipes with an amount error on the ingredients field |
| `Common.DistinctIffNoShrink` | backend/api/serializers.py:308 | `len(x) != len(set(x))` holds exactly when some element repeats |
| `Usernames.ValidateUsername` | backend/api/serializers.py:50-58 | a username is accepted exactly when it is non-empty and every character is a word character or one of `.@+-` |
| `Usernames.ModelAdmitsTrailingNewline` | backend/recipes/models.py:18-23 | the model field's validator accepts everything the serializers accept, and also "bob\n", which no serializer's check accepts. Through a serializer the value is stripped first, so only a direct model save meets it |
| `Usernames.AcceptedHasNoNewline` | backend/recipes/serializers.py:48-56 | an accepted username holds no newline, space or slash |
| `Associations.LinesOf` | backend/api/serializers.py:314-325 | one line per submitted item, in order, with that item's ingredient and amount |
| `Associations.Create` | backend/api/serializers.py:327-333 | the tag set is exactly the submitted tags, and there is one line per submitted item |
| `Associations.ApiUpdateAsWritten` | backend/api/serializers.py:335-342 | `update` gives what `create` would from the same data, with nothing kept from before |
| `Associations.ApiUpdateNoResidue` | backend/api/serializers.py:337-341 | the result of an update does not depend on the recipe's previous tags or lines |
| `Associations.Update` | backend/recipes/serializers.py:354-366 | a part whose key was not sent is left untouched, and a part whose key was sent is replaced as `create` would build it |
| `Associations.UpdatesAgreeOnFullData` | backend/recipes/serializers.py:354-366 | with both keys sent, the two update styles agree, and a second identical update changes nothing |
| `Associations.PartialUpdateWipes` | backend/api/serializers.py:335-342 | a partial update that sends neither key empties the tags and lines in backend/api, and keeps them in the key-conditional update |
| `Associations.LookedUpLines` | backend/recipes/api/serializers.py:424-432 | the lines are built exactly when every submitted ingredient exists, and an unknown one ends the write with 404 |
| `Associations.RecipesApiCreateAsWritten` | backend/recipes/api/serializers.py:419-422 | as written, `create` fails whenever the validated data carries the two booleans, since `Recipe` has no such fields. Otherwise it is the corrected `create` |
| `Associations.RecipesApiCreateNeverSucceeds` | backend/recipes/api/serializers.py:419-422 | every full write the serializer accepts carries the booleans, so as written its create fails. The corrected create succeeds when every ingredient exists |
| `Associations.RecipesApiCreate` | backend/recipes/api/serializers.py:419-433 | `create`, with the two booleans removed, succeeds exactly when every ingredient exists, and then builds what the shared `create` builds |
| `Associations.RecipesApiUpdate` | backend/recipes/api/serializers.py:435-450 | without an ingredients key the update is the key-conditional one. With the key, it succeeds exactly when every ingredient exists, and then equals the key-conditional update |
| `Associations.UpdateKeepsValid` | backend/recipes/models.py:138-154 | an update with existing tags, existing ingredients and amounts of at least 1 keeps the store valid |
| `Filters.MarkFilter` | backend/recipes/api/filters.py:28-46 | a recipe stays exactly when whether the viewer marked it equals the requested value. An anonymous viewer gets nothing for `true` and everything for `false` |
| `Filters.MarkFilterPartitions` | backend/api/filters.py:35-46 | the `true` and `false` results split the input in two disjoint parts |
| `Filters.MarkFiltersCompose` | backend/recipes/api/filters.py:28-46 | filtering twice with the same value is filtering once, and the favorites and cart filters commute |
| `Filters.ApiCartFilterAsWritten` | backend/api/filters.py:48-55 | as written, the cart filter always takes its `false` branch, because a boolean's `str()` is never `'1'` |
| `Filters.ApiCartFilter` | backend/recipes/api/filters.py:38-46 | the corrected cart filter keeps a recipe exactly when its being in the viewer's cart equals the requested value |
| `Filters.ApiCartQueryAsWritten` | backend/api/filters.py:27-29 | a missing value, or one the boolean select does not read such as `1`, leaves the list whole. A read value always takes the `false` branch |
| `Filters.ApiCartQuery` | backend/api/filters.py:27-29 | with the corrected method, a read value keeps exactly the recipes whose being in the cart equals it, and an unread value leaves the list whole |
| `Filters.CartFilterInverted` | backend/api/filters.py:48-55 | with `is_in_shopping_cart=true`, a cart recipe is dropped as written and kept once corrected. An anonymous viewer gets the whole list as written and nothing once corrected. With `is_in_shopping_cart=1` the filter is not applied |
| `Filters.IngredientsByName` | backend/api/filters.py:7-17 | an ingredient stays exactly when its name starts with the query, ignoring case |
| `Filters.IngredientsByNameNarrows` | backend/recipes/api/filters.py:7-17 | a longer query never gives more ingredients, and an empty query keeps every ingredient |
| `Filters.IngredientsByNameIgnoresCase` | backend/recipes/api/filters.py:10-13 | a lower-cased query gives the same ingredients |
| `FollowRecipes.DigitLimit` | backend/api/serializers.py:157 | a limit is applied exactly when `recipes_limit` is a non-empty digit string |
| `FollowRecipes.ApiRecipes` | backend/api/serializers.py:150-169 | the result is a prefix of the author's recipes. Its length is the smaller of the limit and the number of recipes when the limit is a digit string, and the whole list otherwise |
| `FollowRecipes.RecipesApiRecipes` | backend/recipes/api/serializers.py:140-155 | no request gives no recipes; with a request it cuts as backend/api does |
| `FollowRecipes.RecipesRecipes` | backend/recipes/serializers.py:121-137 | no request gives no recipes. A limit `int()` refuses means the whole list. A negative limit makes the slice fail. A limit `int()` reads as k of 0 or more keeps the first min(k, n) recipes. Any result is a prefix of the recipes |
| `FollowRecipes.LimitVersionsAgree` | backend/recipes/serializers.py:126-137 | when the limit is absent or a digit string, the three versions return the same recipes |
| `FollowRecipes.BlankPaddedLimit` | backend/recipes/serializers.py:130-131 | a limit of " 1" is applied by the `int()` version and ignored by the `isdigit()` versions |

## Left out

- HTTP plumbing is not modelled: response bodies, status codes, headers and `Content-Disposition`. Each answer is an `Outcome`, and the response data of a successful add (`id`, `name`, `image`, `cooking_time`) is not built.
- ORM querysets, `select_related`/`prefetch_related` and the lookup path names (`shoppingcarts__user`, `favorite_recipes__user`, `recipe__shopping_cart__user`) are not modelled. A lookup is a membership test on the `Store`'s maps and sets. The path names do not all match the related names declared in backend/recipes/models.py, and that is not modelled either.
- Images, avatars, `build_absolute_uri`, Djoser user views, authentication, pagination, routing in backend/api/urls.py, the admin and the data-loading command are not modelled. backend/api/permissions.py is not part of this model: no modelled view uses it.
- The signed-in user is a parameter. `IsAuthenticated` is the caller's promise, so an anonymous viewer appears only in the filters and in `Destroy`, where `IsAuthenticatedOrReadOnly` refuses it.
- Transactions and concurrency are not modelled. A backend/recipes/api write that hits a 404 half-way through its lookups is taken to roll back whole. `Associations.RecipesApiCreate` and `Associations.RecipesApiUpdate` therefore give no partial result.
- Validation.ApiValidate, Validation.RecipesApiValidate, Validation.RecipesValidate: the required `image` field (`Base64ImageField`) is not part of the payload. A full write without an image is accepted here, and the source refuses it as required.
- Framework field parsing is not modelled: `IntegerField`, `PrimaryKeyRelatedField`, tag existence, `null` for a character field, and the values `BooleanField` reads besides JSON booleans. The hand-written checks are applied to the submitted values as they are. An unknown ingredient reaches `validate_ingredients` as an absent `id`. A float amount reaches them as a float (`Validation.FloatAmount`), although the nested `IntegerField` of backend/recipes/api would already refuse 2.5 at the field level.
- JSON `NaN` and infinities are not amounts here, because the framework's strict JSON parser refuses them.
- `PositiveSmallIntegerField`'s upper bound of 32767 on amounts and cooking time is not modelled. Integers are unbounded.
- `\w`, `str.isdigit`, the whitespace of `str.strip` and `int()`, and case folding are their ASCII parts. The whitespace includes the separators 0x1C to 0x1F. Non-ASCII digits, letters and spaces (such as 0x85 and 0xA0) are not modelled.
- Text.PyIntOfString: Python's `int()` also accepts underscores between digits (`"1_0"`), and that is not modelled.
- Favorite and ShoppingCart declare their own `Meta` without extending the abstract parent's, so they do not inherit its unique constraint. The model still keeps the tables as sets, because every view checks for the pair before inserting. Concurrent duplicate inserts are the only way to break this, and they are left out.
- The `try`/`except` around backend/api `get_recipes`, which turns any error into an empty list, is not modelled beyond the cut itself. The recipe dictionaries built from each recipe are not modelled either.
- Deleting a user, with the cascade to their recipes, is not an operation of any modelled view, so it is not modelled.
- Commented-out code is not modelled, and neither is the debugging `print` in `filter_is_favorited` (backend/api/filters.py:36).
- Relations.RecipesViewsToggle: its contract states only the 404 for a missing id and "only the table changes". The full behaviour is stated through `Relations.ToggleAgrees`, which equates it with `Relations.ApiToggle`.

## Findings

| source | as written | input that shows it | evidently intended | confidence | as-written member | corrected member |
|---|---|---|---|---|---|---|
| backend/api/filters.py:48-55 | the cart filter compares `str(value)` with `'1'`. The BooleanFilter hands over a `bool`, whose string is `"True"` or `"False"`, so the test never holds | `is_in_shopping_cart=true` from an anonymous visitor: every recipe is returned. From a user with recipe 7 in the cart, the `exclude` branch runs, which would drop recipe 7; the lookup path it uses is not checked here (see Left out). `is_in_shopping_cart=1` is read as no value, so it does not filter at all | keep the cart recipes for `true`, as `filter_is_favorited` and the backend/recipes/api twin do | high (not executed) | `Filters.ApiCartFilterAsWritten` | `Filters.ApiCartFilter` |
| backend/api/views.py:75-89 | the view builds `FollowSerializer` with only `request` in its context. The serializer's `validate` reads `following_user` from the context, finds nothing, and refuses | POST subscribe by user 1 to existing user 2, not yet followed: "no target" error, no row | hand the looked-up user over as `following_user`, so the subscription is created | high (not executed) | `Relations.ApiSubscribeAsWritten` | `Relations.ApiSubscribeFixed` |
| backend/api/serializers.py:335-342 | `update` pops `tags` and `ingredient_amounts` with a default of `[]`, then always resets both | PATCH that sends only a new name to a recipe with tags and lines: the tags and lines are gone | leave a part alone when its key was not sent, as the other two serializers do | high (not executed) | `Associations.ApiUpdateAsWritten` | `Associations.Update` |
| backend/recipes/api/views.py:80-98 | the view submits `{'following': id}`, but the serializer declares no `following` field. The value is dropped, `validate_following` never runs, and `save()` is called without a user or a target | POST subscribe by user 1 to existing user 2: the insert breaks the NOT NULL columns of Follow | declare the field and pass the requester to `save()`, so `validate_following` guards the insert | medium (not executed): the serializer's field list is partly outside the modelled lines | `Relations.RecipesApiSubscribeAsWritten` | `Relations.RecipesApiSubscribe` |
| backend/recipes/views.py:187-194 | `favorite` is declared with `detail=False`, so its route carries no recipe id, `pk` stays `None`, and `get_object_or_404` answers 404 | POST favorite for existing recipe 3, not yet favorited: 404 | `detail=True`, like its `shopping_cart` neighbour | medium (not executed): how this view set is routed is not part of this model | `Relations.RecipesViewsFavoriteAsWritten` | `Relations.RecipesViewsFavorite` |
| backend/recipes/api/serializers.py:229-230, 419-422 | `is_favorited` and `is_in_shopping_cart` are writable, required boolean fields. They stay in the validated data, and `Recipe.objects.create(**validated_data)` gets two keywords that `Recipe` does not have | POST a new recipe with both booleans and existing ingredients: TypeError, a 500. Without them: refused as required | pop the two keys before creating, or make the fields read-only as the other two serializers do | high (not executed) | `Associations.RecipesApiCreateAsWritten` | `Associations.RecipesApiCreate` |
| backend/recipes/models.py:18-23 | the username validator is `^[\w.@+-]+$`. With `re.search`, `$` also matches just before a final newline | a User built in code with username `"bob\n"` passes `full_clean()`. Through any serializer the CharField strips the value to `"bob"` before a validator runs, so only saves that bypass the serializers reach the gap | anchor at the very end (`\Z`), as the three serializers do | high (not executed) | `Usernames.ModelAdmitsTrailingNewline` | `Usernames.ValidateUsername` |

=== FILE: aggregation.dfy ===
/** The grouping pass of the shopping-list download: a walk over cart ingredient
    rows that keeps, per ingredient name, a running total and the unit of the row
    seen last, in a dictionary whose keys stay in first-insertion order (a Python
    `defaultdict`). */
module Aggregation {
  import opened Common

  /** One recipe-ingredient row of a cart recipe, with the names the views read
      through `ri.recipe.name`, `ri.ingredient.name` and
      `ri.ingredient.measurement_unit`. */
  datatype Row = Row(recipe: string, ingredient: string, unit: string, amount: nat)

  /** One dictionary entry: `name -> {'amount': amount, 'unit': unit}`. */
  datatype Total = Total(name: string, amount: nat, unit: string)

  // ---------------------------------------------- independent descriptions

  predicate Occurs(rows: seq<Row>, name: string) {
    exists k :: 0 <= k < |rows| && rows[k].ingredient == name
  }

  /** The sum of the amounts of every row for `name`. */
  function SumFor(rows: seq<Row>, name: string): nat {
    if |rows| == 0 then 0
    else (if rows[0].ingredient == name then rows[0].amount else 0) + SumFor(rows[1..], name)
  }

  /** The unit of the last row for `name`. */
  function LastUnit(rows: seq<Row>, name: string): string
    requires Occurs(rows, name)
  {
    var last := rows[|rows| - 1];
    if last.ingredient == name then last.unit
    else
      assert Occurs(rows[..|rows| - 1], name) by {
        var k :| 0 <= k < |rows| && rows[k].ingredient == name;
        assert rows[..|rows| - 1][k] == rows[k];
      }
      LastUnit(rows[..|rows| - 1], name)
  }

  /** The position of the first row for `name`. */
  function FirstIndex(rows: seq<Row>, name: string): (k: nat)
    requires Occurs(rows, name)
    ensures k < |rows| && rows[k].ingredient == name
    ensures forall m :: 0 <= m < k ==> rows[m].ingredient != name
  {
    if rows[0].ingredient == name then 0
    else
      assert Occurs(rows[1..], name) by {
        var k :| 0 <= k < |rows| && rows[k].ingredient == name;
        assert rows[1..][k - 1] == rows[k];
      }
      1 + FirstIndex(rows[1..], name)
  }

  /** The recipe names of the rows: `recipes_used` after the loop. */
  function RecipesOf(rows: seq<Row>): set<string> {
    set k | 0 <= k < |rows| :: rows[k].recipe
  }

  predicate UniqueNames(ts: seq<Total>) {
    forall i, j :: 0 <= i < j < |ts| ==> ts[i].name != ts[j].name
  }

  /** Every ingredient name that occurs in the rows has an entry. */
  ghost predicate KeysCover(ts: seq<Total>, rows: seq<Row>) {
    forall k :: 0 <= k < |rows| ==> exists i :: 0 <= i < |ts| && ts[i].name == rows[k].ingredient
  }

  /** Every entry belongs to a name that occurs in the rows. */
  ghost predicate KeysOccur(ts: seq<Total>, rows: seq<Row>) {
    forall i :: 0 <= i < |ts| ==> Occurs(rows, ts[i].name)
  }

  /** Every entry holds its name's sum and last-seen unit. */
  ghost predicate EntriesExact(ts: seq<Total>, rows: seq<Row>)
    requires KeysOccur(ts, rows)
  {
    forall i :: 0 <= i < |ts| ==>
      ts[i].amount == SumFor(rows, ts[i].name) && ts[i].unit == LastUnit(rows, ts[i].name)
  }

  /** Entries are ordered by the first row of their name. */
  ghost predicate FirstSeenOrder(ts: seq<Total>, rows: seq<Row>)
    requires KeysOccur(ts, rows)
  {
    forall i, j :: 0 <= i < j < |ts| ==> FirstIndex(rows, ts[i].name) < FirstIndex(rows, ts[j].name)
  }

  /** What the finished dictionary must be for `rows`: one entry per ingredient
      name that occurs, holding the sum of that name's amounts and its last unit,
      keys ordered by their first occurrence. */
  ghost predicate Summarizes(ts: seq<Total>, rows: seq<Row>) {
    && UniqueNames(ts)
    && KeysCover(ts, rows)
    && KeysOccur(ts, rows)
    && EntriesExact(ts, rows)
    && FirstSeenOrder(ts, rows)
  }

  // ------------------------------------------------------------ the fold

  /** Where `name` sits among the keys; `|ts|` when it is not a key. */
  function IndexOf(ts: seq<Total>, name: string): (k: nat)
    ensures k <= |ts|
    ensures k < |ts| ==> ts[k].name == name
    ensures forall j :: 0 <= j < k ==> ts[j].name != name
  {
    if |ts| == 0 then 0 else if ts[0].name == name then 0 else 1 + IndexOf(ts[1..], name)
  }

  /** One loop iteration: `totals[name]['amount'] += amount` and
      `totals[name]['unit'] = unit`, the entry being created at the end on first
      use of the name. */
  function Bump(ts: seq<Total>, r: Row): (out: seq<Total>)
    requires UniqueNames(ts)
    ensures UniqueNames(out)
  {
    var k := IndexOf(ts, r.ingredient);
    if k < |ts| then ts[k := Total(r.ingredient, ts[k].amount + r.amount, r.unit)]
    else ts + [Total(r.ingredient, r.amount, r.unit)]
  }

  /** The dictionary after the loop has consumed `rows`, in order. */
  function Tally(rows: seq<Row>): (ts: seq<Total>)
    ensures UniqueNames(ts)
  {
    if |rows| == 0 then [] else Bump(Tally(rows[..|rows| - 1]), rows[|rows| - 1])
  }

  // ---------------------------------------------------------- properties

  lemma SumForSnoc(rows: seq<Row>, r: Row, name: string)
    ensures SumFor(rows + [r], name) == SumFor(rows, name) + (if r.ingredient == name then r.amount else 0)
  {
    if |rows| > 0 {
      assert (rows + [r])[1..] == rows[1..] + [r];
      SumForSnoc(rows[1..], r, name);
    }
  }

  lemma FirstIndexSnoc(rows: seq<Row>, r: Row, name: string)
    requires Occurs(rows, name)
    ensures Occurs(rows + [r], name)
    ensures FirstIndex(rows + [r], name) == FirstIndex(rows, name)
  {
    var k := FirstIndex(rows, name);
    assert (rows + [r])[k] == rows[k];
  }

  /** The updated entry or the appended one carries the row's name; all other
      entries are untouched. */
  lemma BumpNames(ts: seq<Total>, r: Row)
    requires UniqueNames(ts)
    ensures var out := Bump(ts, r);
      && (exists i :: 0 <= i < |out| && out[i].name == r.ingredient)
      && (forall j :: 0 <= j < |ts| ==> out[j].name == ts[j].name)
      && (forall j :: 0 <= j < |out| ==> out[j].name == r.ingredient || (j < |ts| && out[j] == ts[j]))
  {
    var k := IndexOf(ts, r.ingredient);
    assert Bump(ts, r)[k].name == r.ingredient;
  }

  lemma BumpCover(ts: seq<Total>, rows: seq<Row>, r: Row)
    requires UniqueNames(ts) && KeysCover(ts, rows)
    ensures KeysCover(Bump(ts, r), rows + [r])
  {
    var rows' := rows + [r];
    var out := Bump(ts, r);
    BumpNames(ts, r);
    forall k | 0 <= k < |rows'|
      ensures exists j :: 0 <= j < |out| && out[j].name == rows'[k].ingredient
    {
      if k < |rows| {
        assert rows'[k] == rows[k];
        var j :| 0 <= j < |ts| && ts[j].name == rows[k].ingredient;
        assert out[j].name == ts[j].name;
      }
    }
  }

  lemma BumpOccur(ts: seq<Total>, rows: seq<Row>, r: Row)
    requires UniqueNames(ts) && KeysOccur(ts, rows)
    ensures KeysOccur(Bump(ts, r), rows + [r])
  {
    var rows' := rows + [r];
    var out := Bump(ts, r);
    BumpNames(ts, r);
    forall j | 0 <= j < |out|
      ensures Occurs(rows', out[j].name)
    {
      if out[j].name == r.ingredient {
        assert rows'[|rows|] == r;
      } else {
        var k :| 0 <= k < |rows| && rows[k].ingredient == ts[j].name;
        assert rows'[k] == rows[k];
      }
    }
  }

  lemma BumpExact(ts: seq<Total>, rows: seq<Row>, r: Row)
    requires UniqueNames(ts) && KeysCover(ts, rows) && KeysOccur(ts, rows) && EntriesExact(ts, rows)
    ensures KeysOccur(Bump(ts, r), rows + [r])
    ensures EntriesExact(Bump(ts, r), rows + [r])
  {
    var rows' := rows + [r];
    var out := Bump(ts, r);
    BumpOccur(ts, rows, r);
    assert rows'[..|rows'| - 1] == rows;
    forall j | 0 <= j < |out|
      ensures out[j].amount == SumFor(rows', out[j].name) && out[j].unit == LastUnit(rows', out[j].name)
    {
      SumForSnoc(rows, r, out[j].name);
      if i :| 0 <= i < |ts| && ts[i].name == r.ingredient {
        if j != i {
          assert out[j] == ts[j];
        }
      } else {
        if j < |ts| {
          assert out[j] == ts[j];
        } else {
          assert !Occurs(rows, r.ingredient);
          NoOccurrenceSumsToZero(rows, r.ingredient);
        }
      }
    }
  }

  lemma NoOccurrenceSumsToZero(rows: seq<Row>, name: string)
    requires !Occurs(rows, name)
    ensures SumFor(rows, name) == 0
  {
    if |rows| > 0 {
      assert !Occurs(rows[1..], name);
      NoOccurrenceSumsToZero(rows[1..], name);
    }
  }

  lemma BumpOrder(ts: seq<Total>, rows: seq<Row>, r: Row)
    requires UniqueNames(ts) && KeysCover(ts, rows) && KeysOccur(ts, rows) && FirstSeenOrder(ts, rows)
    ensures KeysOccur(Bump(ts, r), rows + [r])
    ensures FirstSeenOrder(Bump(ts, r), rows + [r])
  {
    var rows' := rows + [r];
    var out := Bump(ts, r);
    BumpOccur(ts, rows, r);
    BumpNames(ts, r);
    var k := IndexOf(ts, r.ingredient);
    if k == |ts| {
      assert !Occurs(rows, r.ingredient);
      assert rows'[|rows|] == r;
      assert FirstIndex(rows', r.ingredient) == |rows|;
    }
    forall i, j | 0 <= i < j < |out|
      ensures FirstIndex(rows', out[i].name) < FirstIndex(rows', out[j].name)
    {
      FirstIndexSnoc(rows, r, ts[i].name);
      if j < |ts| {
        FirstIndexSnoc(rows, r, ts[j].name);
      }
    }
  }

  /** One more row keeps the summary exact: the induction step of the fold. */
  lemma BumpStep(ts: seq<Total>, rows: seq<Row>, r: Row)
    requires Summarizes(ts, rows)
    ensures Summarizes(Bump(ts, r), rows + [r])
  {
    BumpCover(ts, rows, r);
    BumpExact(ts, rows, r);
    BumpOrder(ts, rows, r);
  }

  /** The fold computes exactly the summary of its input: unique keys, keys are
      the ingredient names that occur, first-occurrence order, per-name sums and
      last-seen units. */
  lemma {:induction false} TallySummarizes(rows: seq<Row>)
    ensures Summarizes(Tally(rows), rows)
  {
    if |rows| > 0 {
      var init := rows[..|rows| - 1];
      TallySummarizes(init);
      assert init + [rows[|rows| - 1]] == rows;
      BumpStep(Tally(init), init, rows[|rows| - 1]);
    }
  }

  /** The entry for a name, if the dictionary has one. */
  function Find(ts: seq<Total>, name: string): Option<Total> {
    if |ts| == 0 then None else if ts[0].name == name then Some(ts[0]) else Find(ts[1..], name)
  }

  /** Looking a name up in the finished dictionary: present exactly when some row
      carries that name, and then holding that name's sum and last unit. */
  lemma TallyLookup(rows: seq<Row>, name: string)
    ensures Find(Tally(rows), name) ==
              if Occurs(rows, name) then Some(Total(name, SumFor(rows, name), LastUnit(rows, name)))
              else None
  {
    var ts := Tally(rows);
    TallySummarizes(rows);
    if Occurs(rows, name) {
      var k :| 0 <= k < |rows| && rows[k].ingredient == name;
      var i :| 0 <= i < |ts| && ts[i].name == name;
      FindAt(ts, i);
    } else {
      FindAbsent(ts, name);
    }
  }

  lemma FindAt(ts: seq<Total>, i: nat)
    requires UniqueNames(ts) && i < |ts|
    ensures Find(ts, ts[i].name) == Some(ts[i])
  {
    if i > 0 {
      FindAt(ts[1..], i - 1);
    }
  }

  lemma FindAbsent(ts: seq<Total>, name: string)
    requires forall i :: 0 <= i < |ts| ==> ts[i].name != name
    ensures Find(ts, name) == None
  {
    if |ts| > 0 {
      FindAbsent(ts[1..], name);
    }
  }

  /** An ingredient split over two cart recipes is listed once, with the two
      amounts added (onion 2 in one recipe, onion 3 in another gives onion 5). */
  lemma TwoRecipesAddUp(a: Row, b: Row)
    requires a.ingredient == b.ingredient && a.recipe != b.recipe
    ensures Tally([a, b]) == [Total(a.ingredient, a.amount + b.amount, b.unit)]
  {
    assert [a, b][..1] == [a];
    assert [a][..0] == [];
    assert Tally([a]) == [Total(a.ingredient, a.amount, a.unit)];
  }
}

=== FILE: associations.dfy ===
/** The association updater: what `create` and `update` of the recipe serializers
    do to a recipe's tag set and its ingredient lines, given the validated data.

    - backend/api/serializers.py replaces both on every update, reading a missing
      key as an empty list.
    - backend/recipes/api/serializers.py and backend/recipes/serializers.py replace
      each only when its key is present, and leave it untouched otherwise.
    - backend/recipes/api/serializers.py looks each ingredient up again and answers
      404 for an unknown one. */
module Associations {
  import opened Common
  import opened Models
  import Validation

  /** A validated ingredient item: the ingredient and the amount. */
  datatype Item = Item(ingredient: IngredientId, amount: int)

  /** The validated data of a write; a key that was not sent is `None`. */
  datatype Written = Written(tags: Option<seq<TagId>>, ingredients: Option<seq<Item>>)

  /** The part of a recipe the updater owns. */
  datatype Assoc = Assoc(tags: set<TagId>, lines: seq<Line>)

  /** One RecipeIngredient row per submitted item, in order (`add_ingredients`,
      and the loops of the two other versions). */
  function LinesOf(items: seq<Item>): (ls: seq<Line>)
    ensures |ls| == |items|
    ensures forall k :: 0 <= k < |items| ==> ls[k].ingredient == items[k].ingredient && ls[k].amount == items[k].amount
  {
    seq(|items|, k requires 0 <= k < |items| => Line(items[k].ingredient, items[k].amount))
  }

  /** `create`, the same in the three versions once the lookups succeed: the tag
      set is the set of submitted tags, and there is one line per item. */
  function Create(w: Written): (a: Assoc)
    ensures forall t :: t in a.tags <==> t in w.tags.GetOr([])
    ensures |a.lines| == |w.ingredients.GetOr([])|
    ensures forall k :: 0 <= k < |a.lines| ==>
              a.lines[k] == Line(w.ingredients.GetOr([])[k].ingredient, w.ingredients.GetOr([])[k].amount)
  {
    Assoc(Elems(w.tags.GetOr([])), LinesOf(w.ingredients.GetOr([])))
  }

  /** `update` of backend/api/serializers.py as written: both parts are replaced,
      a missing key counting as an empty list. */
  function ApiUpdateAsWritten(a: Assoc, w: Written): (b: Assoc)
    ensures b == Create(w)
  {
    Assoc(Elems(w.tags.GetOr([])), LinesOf(w.ingredients.GetOr([])))
  }

  /** `update` of backend/recipes/serializers.py (and, once every lookup succeeds,
      of backend/recipes/api/serializers.py): each part replaced only when its key
      was sent. */
  function Update(a: Assoc, w: Written): (b: Assoc)
    ensures w.tags.None? ==> b.tags == a.tags
    ensures w.ingredients.None? ==> b.lines == a.lines
    ensures w.tags.Some? ==> b.tags == Create(w).tags
    ensures w.ingredients.Some? ==> b.lines == Create(w).lines
  {
    Assoc(
      if w.tags.Some? then Elems(w.tags.value) else a.tags,
      if w.ingredients.Some? then LinesOf(w.ingredients.value) else a.lines)
  }

  /** Full replacement leaves no residue: what was there before does not show in
      the result. */
  lemma ApiUpdateNoResidue(a1: Assoc, a2: Assoc, w: Written)
    ensures ApiUpdateAsWritten(a1, w) == ApiUpdateAsWritten(a2, w)
  {
  }

  /** When both keys are sent the two update styles agree, and updating twice with
      the same data changes nothing more. */
  lemma UpdatesAgreeOnFullData(a: Assoc, w: Written)
    requires w.tags.Some? && w.ingredients.Some?
    ensures Update(a, w) == ApiUpdateAsWritten(a, w)
    ensures Update(Update(a, w), w) == Update(a, w)
  {
  }

  /** A partial update that sends neither key: backend/api wipes the tags and the
      lines, the key-conditional update keeps the recipe as it was. */
  lemma PartialUpdateWipes(a: Assoc)
    requires |a.tags| > 0 && |a.lines| > 0
    ensures ApiUpdateAsWritten(a, Written(None, None)) == Assoc({}, [])
    ensures ApiUpdateAsWritten(a, Written(None, None)) != a
    ensures Update(a, Written(None, None)) == a
  {
    assert Elems<TagId>([]) == {};
  }

  /** The lines of backend/recipes/api/serializers.py: every ingredient is looked
      up again with `get_object_or_404`, and an unknown one ends the write with a
      404. */
  function LookedUpLines(catalogue: set<IngredientId>, items: seq<Item>): (o: Outcome<seq<Line>>)
    ensures o.Ok? <==> forall k :: 0 <= k < |items| ==> items[k].ingredient in catalogue
    ensures o.Fail? ==> o.failure == NotFound
    ensures o.Ok? ==> o.value == LinesOf(items)
  {
    if |items| == 0 then Ok([])
    else if items[0].ingredient !in catalogue then Fail(NotFound)
    else
      match LookedUpLines(catalogue, items[1..])
      case Fail(f) => Fail(f)
      case Ok(rest) =>
        assert forall k :: 1 <= k < |items| ==> items[k] == items[1..][k - 1];
        assert LinesOf(items) == [Line(items[0].ingredient, items[0].amount)] + rest;
        Ok([Line(items[0].ingredient, items[0].amount)] + rest)
  }

  /** `create` of backend/recipes/api/serializers.py as written. The validated data
      still holds `is_favorited` and `is_in_shopping_cart` (`marksSent`) when it
      reaches `Recipe.objects.create(**validated_data)`. Recipe has no such fields,
      so the call raises TypeError before any lookup. */
  function RecipesApiCreateAsWritten(catalogue: set<IngredientId>, w: Written, marksSent: bool): (o: Outcome<Assoc>)
    ensures marksSent ==> o == Fail(UnknownModelField)
    ensures !marksSent ==> o == RecipesApiCreate(catalogue, w)
  {
    if marksSent then Fail(UnknownModelField) else RecipesApiCreate(catalogue, w)
  }

  /** Every create the serializer accepts sends both booleans, so as written no
      create through backend/recipes/api succeeds; with the two keys removed
      before `Recipe.objects.create`, it succeeds whenever the ingredients exist. */
  lemma RecipesApiCreateNeverSucceeds(req: Validation.Request, catalogue: set<IngredientId>, w: Written)
    requires Validation.RecipesApiValidate(req) == Validation.Accepted && !req.partial
    requires forall k :: 0 <= k < |w.ingredients.GetOr([])| ==> w.ingredients.GetOr([])[k].ingredient in catalogue
    ensures RecipesApiCreateAsWritten(catalogue, w, req.body.isFavorited.Some? || req.body.isInShoppingCart.Some?)
            == Fail(UnknownModelField)
    ensures RecipesApiCreate(catalogue, w) == Ok(Create(w))
  {
    Validation.RecipesApiFullWriteCarriesMarks(req);
  }

  /** `create` of backend/recipes/api/serializers.py once `is_favorited` and
      `is_in_shopping_cart` are taken out of the validated data. */
  function RecipesApiCreate(catalogue: set<IngredientId>, w: Written): (o: Outcome<Assoc>)
    ensures o.Ok? <==> forall k :: 0 <= k < |w.ingredients.GetOr([])| ==> w.ingredients.GetOr([])[k].ingredient in catalogue
    ensures o.Ok? ==> o.value == Create(w)
  {
    match LookedUpLines(catalogue, w.ingredients.GetOr([]))
    case Fail(f) => Fail(f)
    case Ok(ls) => Ok(Assoc(Elems(w.tags.GetOr([])), ls))
  }

  /** `update` of backend/recipes/api/serializers.py: the key-conditional update,
      with the lookups. */
  function RecipesApiUpdate(catalogue: set<IngredientId>, a: Assoc, w: Written): (o: Outcome<Assoc>)
    ensures w.ingredients.None? ==> o == Ok(Update(a, w))
    ensures w.ingredients.Some? ==>
              (o.Ok? <==> forall k :: 0 <= k < |w.ingredients.value| ==> w.ingredients.value[k].ingredient in catalogue)
    ensures o.Ok? ==> o.value == Update(a, w)
  {
    match w.ingredients
    case None => Ok(Update(a, w))
    case Some(items) =>
      match LookedUpLines(catalogue, items)
      case Fail(f) => Fail(f)
      case Ok(ls) => Ok(Assoc(if w.tags.Some? then Elems(w.tags.value) else a.tags, ls))
  }

  /** Writing the associations into a stored recipe. */
  function WithAssoc(r: Recipe, a: Assoc): Recipe {
    r.(tags := a.tags, lines := a.lines)
  }

  /** The associations of stored recipes stay valid when the written tags exist,
      every ingredient exists, and every amount is at least 1, which the
      validation and the lookups guarantee. */
  lemma UpdateKeepsValid(s: Store, id: RecipeId, a: Assoc, w: Written)
    requires Valid(s) && id in s.recipes
    requires a == Assoc(s.recipes[id].tags, s.recipes[id].lines)
    requires forall t :: t in w.tags.GetOr([]) ==> t in s.tags
    requires forall k :: 0 <= k < |w.ingredients.GetOr([])| ==>
               w.ingredients.GetOr([])[k].ingredient in s.ingredients && w.ingredients.GetOr([])[k].amount >= 1
    ensures Valid(s.(recipes := s.recipes[id := WithAssoc(s.recipes[id], Update(a, w))]))
  {
    var t := s.(recipes := s.recipes[id := WithAssoc(s.recipes[id], Update(a, w))]);
    assert RecipeValid(s, s.recipes[id]);
    forall r | r in t.recipes
      ensures RecipeValid(t, t.recipes[r])
    {
      assert RecipeValid(s, s.recipes[r]);
    }
  }
}

=== FILE: common.dfy ===
/** Identifiers, optional values and the outcome type shared by every part of the model.
    Database primary keys are natural numbers; a request either yields a new value
    (a new relation set, a new store, a document) or one of the failures the views
    answer with. */
module Common {

  type UserId = nat
  type RecipeId = nat
  type IngredientId = nat
  type TagId = nat

  /** Python's `None` versus a present value. */
  datatype Option<+T> = None | Some(value: T) {
    function GetOr(default: T): T {
      if Some? then value else default
    }
  }

  /** The identity attached to a request: an anonymous visitor or a signed-in user. */
  datatype Viewer = Anonymous | Member(id: UserId)

  /** The HTTP verbs of the add/remove actions. */
  datatype Verb = Post | Delete

  /** The two user-to-recipe relation tables that share one code path. */
  datatype Kind = Favorites | Cart

  /** Every failure a modelled view or serializer reports. */
  datatype Failure =
    | NotAuthenticated         // an anonymous visitor refused by IsAuthenticatedOrReadOnly
    | NotFound                 // get_object_or_404 / User.DoesNotExist
    | Forbidden                // author check of destroy and of recipe editing
    | AlreadyIn(kind: Kind)    // "recipe already in favorites / shopping list"
    | NotIn(kind: Kind)        // "recipe not found in favorites / shopping list"
    | SelfFollow               // "cannot subscribe to yourself"
    | AlreadySubscribed        // "you are already subscribed to this user"
    | NotSubscribed            // "you are not subscribed to this user"
    | NoTarget                 // "no target user for the subscription"
    | EmptyCart                // "the shopping list is empty"
    | IntegrityError           // a database constraint rejected an insert
    | NegativeSlice            // a queryset sliced with a negative bound
    | UnknownModelField        // Model.objects.create given a keyword the model lacks (TypeError)

  datatype Outcome<+T> = Ok(value: T) | Fail(failure: Failure)

  /** No element occurs twice. */
  predicate Distinct<T(==)>(xs: seq<T>) {
    forall i, j :: 0 <= i < j < |xs| ==> xs[i] != xs[j]
  }

  /** The elements of a sequence, as Python's `set(xs)`. */
  function Elems<T>(xs: seq<T>): set<T> {
    set x | x in xs
  }

  lemma {:induction false} ElemsSize<T>(xs: seq<T>)
    ensures |Elems(xs)| <= |xs|
  {
    if |xs| > 0 {
      ElemsSize(xs[1..]);
      assert xs == [xs[0]] + xs[1..];
      assert Elems(xs) == {xs[0]} + Elems(xs[1..]);
    } else {
      assert Elems(xs) == {};
    }
  }

  lemma DistinctCons<T>(x: T, xs: seq<T>)
    ensures Distinct([x] + xs) <==> x !in xs && Distinct(xs)
  {
    var ys := [x] + xs;
    if x !in xs && Distinct(xs) {
      forall i, j | 0 <= i < j < |ys|
        ensures ys[i] != ys[j]
      {
        assert ys[j] == xs[j - 1];
        if i > 0 {
          assert ys[i] == xs[i - 1];
        }
      }
    }
    if Distinct(ys) {
      forall i, j | 0 <= i < j < |xs|
        ensures xs[i] != xs[j]
      {
        assert xs[i] == ys[i + 1] && xs[j] == ys[j + 1];
      }
      forall k | 0 <= k < |xs|
        ensures xs[k] != x
      {
        assert ys[k + 1] == xs[k] && ys[0] == x;
      }
    }
  }

  /** Python's `len(xs) != len(set(xs))` is exactly "not Distinct". */
  lemma {:induction false} DistinctIffNoShrink<T>(xs: seq<T>)
    ensures Distinct(xs) <==> |Elems(xs)| == |xs|
  {
    if |xs| == 0 {
      assert Elems(xs) == {};
    } else {
      var t := xs[1..];
      DistinctIffNoShrink(t);
      assert xs == [xs[0]] + t;
      DistinctCons(xs[0], t);
      assert Elems(xs) == {xs[0]} + Elems(t);
      if xs[0] in t {
        ElemsSize(t);
        assert Elems(xs) == Elems(t);
      }
    }
  }
}

=== FILE: filters.dfy ===
/** The query filters of the recipe and ingredient lists: `is_favorited` and
    `is_in_shopping_cart` keep or drop the recipes the viewer has marked, and the
    ingredient `name` filter keeps the names that start with the query, ignoring
    case. A queryset is modelled as the set of ids it yields. */
module Filters {
  import opened Common
  import opened Text
  import opened Models

  /** Whether the viewer has the recipe in the relation; an anonymous visitor has
      marked nothing. */
  predicate Marked(viewer: Viewer, rel: set<(UserId, RecipeId)>, id: RecipeId) {
    viewer.Member? && (viewer.id, id) in rel
  }

  /** `filter_is_favorited` and `filter_is_in_shopping_cart` of
      backend/recipes/api/filters.py, and `filter_is_favorited` of
      backend/api/filters.py: for an anonymous visitor `true` gives nothing and
      `false` everything; for a user `true` keeps the marked recipes and `false`
      drops them. In every case a recipe stays exactly when its being marked
      equals the requested value. */
  function MarkFilter(recipes: set<RecipeId>, viewer: Viewer, rel: set<(UserId, RecipeId)>, value: bool): (r: set<RecipeId>)
    ensures r <= recipes
    ensures forall id :: id in recipes ==> (id in r <==> Marked(viewer, rel, id) == value)
    ensures viewer.Anonymous? ==> r == (if value then {} else recipes)
  {
    match viewer
    case Anonymous => if value then {} else recipes
    case Member(u) =>
      var marked := set p | p in rel && p.0 == u :: p.1;
      if value then recipes * marked else recipes - marked
  }

  /** `true` and `false` split the list in two. */
  lemma MarkFilterPartitions(recipes: set<RecipeId>, viewer: Viewer, rel: set<(UserId, RecipeId)>)
    ensures MarkFilter(recipes, viewer, rel, true) + MarkFilter(recipes, viewer, rel, false) == recipes
    ensures MarkFilter(recipes, viewer, rel, true) * MarkFilter(recipes, viewer, rel, false) == {}
  {
    var t := MarkFilter(recipes, viewer, rel, true);
    var f := MarkFilter(recipes, viewer, rel, false);
    forall id | id in recipes
      ensures id in t + f
    {
    }
    forall id | id in t
      ensures id !in f
    {
    }
  }

  /** Filtering twice with the same value is filtering once, and the order of the
      favorites and cart filters does not matter. */
  lemma MarkFiltersCompose(recipes: set<RecipeId>, viewer: Viewer, favs: set<(UserId, RecipeId)>, carts: set<(UserId, RecipeId)>, a: bool, b: bool)
    ensures MarkFilter(MarkFilter(recipes, viewer, favs, a), viewer, favs, a) == MarkFilter(recipes, viewer, favs, a)
    ensures MarkFilter(MarkFilter(recipes, viewer, favs, a), viewer, carts, b)
            == MarkFilter(MarkFilter(recipes, viewer, carts, b), viewer, favs, a)
  {
  }

  /** Python's `str(value)` of the boolean django-filter's BooleanFilter hands over. */
  function PyBoolStr(value: bool): string {
    if value then "True" else "False"
  }

  /** `filter_is_in_shopping_cart` of backend/api/filters.py as written: it tests
      `str(value) == '1'`, which a boolean never satisfies, so the filter always
      takes its `false` branch. */
  function ApiCartFilterAsWritten(recipes: set<RecipeId>, viewer: Viewer, carts: set<(UserId, RecipeId)>, value: bool): (r: set<RecipeId>)
    ensures r == MarkFilter(recipes, viewer, carts, false)
  {
    MarkFilter(recipes, viewer, carts, PyBoolStr(value) == "1")
  }

  /** The filter testing the boolean itself, as its backend/recipes/api twin does. */
  function ApiCartFilter(recipes: set<RecipeId>, viewer: Viewer, carts: set<(UserId, RecipeId)>, value: bool): (r: set<RecipeId>)
    ensures forall id :: id in r <==> id in recipes && Marked(viewer, carts, id) == value
  {
    MarkFilter(recipes, viewer, carts, value)
  }

  /** How a BooleanFilter reads its query parameter, through Django's
      NullBooleanSelect: "true" and "True" (and the legacy "2") mean `true`,
      "false" and "False" (and "3") mean `false`, and anything else, "1"
      included, is no value. */
  function QueryBool(raw: string): (r: Option<bool>)
    ensures r == Some(true) <==> raw in ["true", "True", "2"]
    ensures r == Some(false) <==> raw in ["false", "False", "3"]
  {
    if raw == "true" || raw == "True" || raw == "2" then Some(true)
    else if raw == "false" || raw == "False" || raw == "3" then Some(false)
    else None
  }

  /** The `is_in_shopping_cart` parameter of backend/api/filters.py as written. A
      missing or unread value leaves the list whole, since the filter method is
      only called with a value; a read value reaches the dead `'1'` test and the
      `false` branch. */
  function ApiCartQueryAsWritten(recipes: set<RecipeId>, viewer: Viewer, carts: set<(UserId, RecipeId)>, raw: Option<string>): (r: set<RecipeId>)
    ensures raw.None? || QueryBool(raw.value).None? ==> r == recipes
    ensures raw.Some? && QueryBool(raw.value).Some? ==> r == MarkFilter(recipes, viewer, carts, false)
  {
    if raw.None? then recipes
    else match QueryBool(raw.value)
      case None => recipes
      case Some(b) => ApiCartFilterAsWritten(recipes, viewer, carts, b)
  }

  /** The same parameter with the corrected filter method. */
  function ApiCartQuery(recipes: set<RecipeId>, viewer: Viewer, carts: set<(UserId, RecipeId)>, raw: Option<string>): (r: set<RecipeId>)
    ensures raw.None? || QueryBool(raw.value).None? ==> r == recipes
    ensures raw.Some? && QueryBool(raw.value).Some? ==>
              forall id :: id in r <==> id in recipes && Marked(viewer, carts, id) == QueryBool(raw.value).value
  {
    if raw.None? then recipes
    else match QueryBool(raw.value)
      case None => recipes
      case Some(b) => ApiCartFilter(recipes, viewer, carts, b)
  }

  /** Asking for the cart recipes with `is_in_shopping_cart=true` returns the
      recipes NOT in the cart as written, and the cart recipes once corrected; an
      anonymous visitor gets the whole list instead of nothing. With
      `is_in_shopping_cart=1` the filter is not applied at all. */
  lemma CartFilterInverted(recipes: set<RecipeId>, u: UserId, carts: set<(UserId, RecipeId)>, id: RecipeId)
    requires id in recipes && (u, id) in carts
    ensures id !in ApiCartQueryAsWritten(recipes, Member(u), carts, Some("true"))
    ensures id in ApiCartQuery(recipes, Member(u), carts, Some("true"))
    ensures ApiCartQueryAsWritten(recipes, Anonymous, carts, Some("true")) == recipes
    ensures ApiCartQuery(recipes, Anonymous, carts, Some("true")) == {}
    ensures ApiCartQueryAsWritten(recipes, Member(u), carts, Some("1")) == recipes
  {
    assert QueryBool("true") == Some(true);
    assert QueryBool("1") == None;
  }

  // ------------------------------------------------------------ ingredients

  /** `IngredientFilter.name` (`istartswith`), the same in backend/api and
      backend/recipes/api: the ingredients whose name starts with the query,
      ignoring case. */
  function IngredientsByName(catalogue: map<IngredientId, Ingredient>, query: string): (r: set<IngredientId>)
    ensures r <= catalogue.Keys
    ensures forall id :: id in catalogue ==> (id in r <==> StartsWithIgnoringCase(catalogue[id].name, query))
  {
    set id | id in catalogue && StartsWithIgnoringCase(catalogue[id].name, query)
  }

  /** Typing more narrows the result, and an empty query keeps everything. */
  lemma IngredientsByNameNarrows(catalogue: map<IngredientId, Ingredient>, query: string, more: string)
    ensures IngredientsByName(catalogue, query + more) <= IngredientsByName(catalogue, query)
    ensures IngredientsByName(catalogue, "") == catalogue.Keys
  {
    forall id | id in IngredientsByName(catalogue, query + more)
      ensures id in IngredientsByName(catalogue, query)
    {
      StartsWithNarrows(catalogue[id].name, query, more);
    }
    forall id | id in catalogue
      ensures id in IngredientsByName(catalogue, "")
    {
      assert Lower("") == "";
    }
  }

  /** The case of the query does not matter. */
  lemma IngredientsByNameIgnoresCase(catalogue: map<IngredientId, Ingredient>, query: string)
    ensures IngredientsByName(catalogue, Lower(query)) == IngredientsByName(catalogue, query)
  {
    assert Lower(Lower(query)) == Lower(query) by {
      forall i | 0 <= i < |query|
        ensures Lower(Lower(query))[i] == Lower(query)[i]
      {
      }
    }
  }
}

=== FILE: follow_recipes.dfy ===
/** The `recipes` field of a subscription: the followed author's recipes, cut to
    the `recipes_limit` query parameter. The three serializers read the parameter
    differently. A queryset slice `qs[:n]` keeps the first `n` recipes, all of them
    when there are fewer, and refuses a negative `n`. */
module FollowRecipes {
  import opened Common
  import opened Text

  /** `qs[:n]` for `n >= 0`. */
  function Take<T>(xs: seq<T>, n: nat): (r: seq<T>)
    ensures r <= xs
    ensures |r| == if n < |xs| then n else |xs|
  {
    if n < |xs| then xs[..n] else xs
  }

  /** `limit and limit.isdigit()`: a non-empty string of digits. */
  function DigitLimit(limit: Option<string>): (r: Option<nat>)
    ensures r.Some? <==> limit.Some? && IsDigits(limit.value)
  {
    if limit.Some? && IsDigits(limit.value) then Some(DigitsValue(limit.value)) else None
  }

  /** `FollowSerializer.get_recipes` of backend/api/serializers.py: a digit-string
      limit cuts the list; any other value, or none, or no request, leaves it
      whole. */
  function ApiRecipes<T>(recipes: seq<T>, hasRequest: bool, limit: Option<string>): (r: seq<T>)
    ensures r <= recipes
    ensures hasRequest && DigitLimit(limit).Some? ==> |r| == Min(DigitLimit(limit).value, |recipes|)
    ensures !hasRequest || DigitLimit(limit).None? ==> r == recipes
  {
    var n := if hasRequest then DigitLimit(limit) else None;
    if n.Some? then Take(recipes, n.value) else recipes
  }

  function Min(a: nat, b: nat): nat {
    if a < b then a else b
  }

  /** `FollowSerializer.get_recipes` of backend/recipes/api/serializers.py: the
      same reading of the limit, but no request means no recipes. */
  function RecipesApiRecipes<T>(recipes: seq<T>, hasRequest: bool, limit: Option<string>): (r: seq<T>)
    ensures !hasRequest ==> r == []
    ensures hasRequest ==> r == ApiRecipes(recipes, hasRequest, limit)
  {
    if !hasRequest then []
    else
      match DigitLimit(limit)
      case Some(n) => Take(recipes, n)
      case None => recipes
  }

  /** `FollowSerializer.get_recipes` of backend/recipes/serializers.py: the limit
      goes through `int()`, so surrounding blanks and a sign are allowed; a value
      `int()` refuses means no limit, and a negative one makes the slice raise. */
  function RecipesRecipes<T>(recipes: seq<T>, hasRequest: bool, limit: Option<string>): (o: Outcome<seq<T>>)
    ensures !hasRequest ==> o == Ok([])
    ensures hasRequest && limit.Some? && PyIntOfString(limit.value).Some? && PyIntOfString(limit.value).value < 0
            ==> o == Fail(NegativeSlice)
    ensures hasRequest && limit.Some? && PyIntOfString(limit.value).Some? && PyIntOfString(limit.value).value >= 0
            ==> o.Ok? && |o.value| == Min(PyIntOfString(limit.value).value, |recipes|)
    ensures o.Ok? ==> o.value <= recipes
    ensures hasRequest && (limit.None? || PyIntOfString(limit.value).None?) ==> o == Ok(recipes)
  {
    if !hasRequest then Ok([])
    else
      var n := if limit.Some? then PyIntOfString(limit.value) else None;
      match n
      case None => Ok(recipes)
      case Some(k) => if k < 0 then Fail(NegativeSlice) else Ok(Take(recipes, k))
  }

  /** Wherever the limit is a digit string, or absent, the three versions return
      the same recipes for a request. */
  lemma LimitVersionsAgree<T>(recipes: seq<T>, limit: Option<string>)
    requires limit.None? || IsDigits(limit.value)
    ensures RecipesApiRecipes(recipes, true, limit) == ApiRecipes(recipes, true, limit)
    ensures RecipesRecipes(recipes, true, limit) == Ok(ApiRecipes(recipes, true, limit))
  {
  }

  /** `" 1".strip()` is `"1"`, and `" 1"` is no digit string. */
  lemma BlankOneStrips(s: string)
    requires s == " 1"
    ensures !IsDigits(s) && Strip(s) == "1"
  {
    assert !IsDigit(s[0]);
    assert s[1..] == "1";
    assert StripLeft(s) == StripLeft("1");
  }

  /** `int(" 1") == 1`. */
  lemma BlankOneParses(s: string)
    requires s == " 1"
    ensures PyIntOfString(s) == Some(1)
  {
    BlankOneStrips(s);
    var t := Strip(s);
    assert IsDigits(t) && t[0] == '1';
    assert DigitsValue(t) == 1;
  }

  /** A limit with a leading blank: the `int()` version applies it, the
      `isdigit()` versions ignore it. */
  lemma BlankPaddedLimit(recipes: seq<int>, limit: Option<string>)
    requires limit == Some(" 1") && |recipes| == 3
    ensures ApiRecipes(recipes, true, limit) == recipes
    ensures RecipesRecipes(recipes, true, limit) == Ok(recipes[..1])
  {
    BlankOneStrips(limit.value);
    BlankOneParses(limit.value);
  }
}

=== FILE: models.dfy ===
/** The database of backend/recipes/models.py as one immutable value: users, the
    tag and ingredient catalogues, recipes with their tag set and ingredient lines
    (the RecipeIngredient rows, which live and die with their recipe), and the three
    relation tables as sets of pairs. `Valid` collects the constraints the models
    declare; `Destroy` is the recipe delete endpoint with its author check and the
    cascade the foreign keys declare. */
module Models {
  import opened Common

  datatype User = User(username: string)

  datatype Tag = Tag(name: string, slug: string)

  datatype Ingredient = Ingredient(name: string, unit: string)

  /** One RecipeIngredient row. Amounts are kept as integers so that the writes
      which could break `amount >= 1` stay expressible. */
  datatype Line = Line(ingredient: IngredientId, amount: int)

  datatype Recipe = Recipe(
    author: UserId,
    name: string,
    text: string,
    cookingTime: int,
    tags: set<TagId>,
    lines: seq<Line>)

  datatype Store = Store(
    users: map<UserId, User>,
    tags: map<TagId, Tag>,
    ingredients: map<IngredientId, Ingredient>,
    recipes: map<RecipeId, Recipe>,
    favorites: set<(UserId, RecipeId)>,
    carts: set<(UserId, RecipeId)>,
    follows: set<(UserId, UserId)>)

  /** MinValueValidator(1) on cooking_time and on every line amount, and the
      foreign keys of a recipe. */
  predicate RecipeValid(s: Store, r: Recipe) {
    && r.author in s.users
    && r.cookingTime >= 1
    && r.tags <= s.tags.Keys
    && forall k :: 0 <= k < |r.lines| ==> r.lines[k].amount >= 1 && r.lines[k].ingredient in s.ingredients
  }

  /** unique=True on Tag.name, Tag.slug and Ingredient.name. */
  predicate CataloguesUnique(s: Store) {
    && (forall a, b :: a in s.tags && b in s.tags && a != b ==>
          s.tags[a].name != s.tags[b].name && s.tags[a].slug != s.tags[b].slug)
    && (forall a, b :: a in s.ingredients && b in s.ingredients && a != b ==>
          s.ingredients[a].name != s.ingredients[b].name)
  }

  /** The foreign keys of the relation tables; uniqueness of each pair is built
      into their being sets. */
  predicate RelationsValid(s: Store) {
    && (forall p :: p in s.favorites ==> p.0 in s.users && p.1 in s.recipes)
    && (forall p :: p in s.carts ==> p.0 in s.users && p.1 in s.recipes)
    && (forall p :: p in s.follows ==> p.0 in s.users && p.1 in s.users)
  }

  predicate Valid(s: Store) {
    && CataloguesUnique(s)
    && (forall id :: id in s.recipes ==> RecipeValid(s, s.recipes[id]))
    && RelationsValid(s)
  }

  /** The rows of a relation table that do not point at `id`. */
  function Without(rel: set<(UserId, RecipeId)>, id: RecipeId): (r: set<(UserId, RecipeId)>)
    ensures r <= rel
    ensures forall p :: p in rel ==> (p in r <==> p.1 != id)
  {
    set p | p in rel && p.1 != id
  }

  /** Deleting a recipe: its lines go with it, and so do the favorite and cart
      rows pointing at it (on_delete=CASCADE); nothing else changes. */
  function DeleteRecipe(s: Store, id: RecipeId): (t: Store)
    ensures t.recipes.Keys == s.recipes.Keys - {id}
    ensures forall k :: k in t.recipes ==> t.recipes[k] == s.recipes[k]
    ensures forall p :: p in t.favorites <==> p in s.favorites && p.1 != id
    ensures forall p :: p in t.carts <==> p in s.carts && p.1 != id
    ensures t.users == s.users && t.tags == s.tags && t.ingredients == s.ingredients
    ensures t.follows == s.follows
  {
    s.(recipes := s.recipes - {id},
       favorites := Without(s.favorites, id),
       carts := Without(s.carts, id))
  }

  /** `RecipeViewSet.destroy`, identical in the three view modules. The view set's
      `IsAuthenticatedOrReadOnly` refuses an anonymous DELETE before the handler
      runs; then a missing recipe is a 404, a requester other than the author gets
      403 and the recipe stays, and the author deletes it with its cascade. */
  function Destroy(s: Store, viewer: Viewer, id: RecipeId): (o: Outcome<Store>)
    ensures viewer.Anonymous? ==> o == Fail(NotAuthenticated)
    ensures viewer.Member? && id !in s.recipes ==> o == Fail(NotFound)
    ensures viewer.Member? && id in s.recipes && viewer.id != s.recipes[id].author ==> o == Fail(Forbidden)
    ensures o.Ok? <==> id in s.recipes && viewer == Member(s.recipes[id].author)
    ensures o.Ok? ==> o.value == DeleteRecipe(s, id)
  {
    match viewer
    case Anonymous => Fail(NotAuthenticated)
    case Member(u) =>
      if id !in s.recipes then Fail(NotFound)
      else if u != s.recipes[id].author then Fail(Forbidden)
      else Ok(DeleteRecipe(s, id))
  }

  /** The cascade keeps every declared constraint. */
  lemma DestroyKeepsValid(s: Store, viewer: Viewer, id: RecipeId)
    requires Valid(s)
    requires Destroy(s, viewer, id).Ok?
    ensures Valid(Destroy(s, viewer, id).value)
  {
    var t := Destroy(s, viewer, id).value;
    assert t == DeleteRecipe(s, id);
    forall k | k in t.recipes
      ensures RecipeValid(t, t.recipes[k])
    {
      assert RecipeValid(s, s.recipes[k]);
    }
  }
}

=== FILE: relations.dfy ===
/** The add/remove actions on the user-to-recipe relation tables (favorites and
    shopping cart) and on subscriptions, in each of their three versions. Every
    action is a function from the store to either a new store or the failure the
    view answers with; a failure leaves the store as it was, because every branch
    that fails does so before it writes. */
module Relations {
  import opened Common
  import opened Models

  function Table(s: Store, kind: Kind): set<(UserId, RecipeId)> {
    match kind
    case Favorites => s.favorites
    case Cart => s.carts
  }

  function WithTable(s: Store, kind: Kind, rel: set<(UserId, RecipeId)>): Store {
    match kind
    case Favorites => s.(favorites := rel)
    case Cart => s.(carts := rel)
  }

  /** Only the `kind` table of `t` may differ from `s`. */
  predicate OnlyTableChanges(s: Store, t: Store, kind: Kind) {
    && t.users == s.users && t.tags == s.tags && t.ingredients == s.ingredients
    && t.recipes == s.recipes && t.follows == s.follows
    && (kind == Favorites ==> t.carts == s.carts)
    && (kind == Cart ==> t.favorites == s.favorites)
  }

  /** `handle_add_remove` of backend/api/views.py and backend/recipes/api/views.py:
      POST adds the pair unless it is already there, DELETE removes it unless it is
      absent; in either case exactly that one pair is touched. */
  function HandleAddRemove(rel: set<(UserId, RecipeId)>, user: UserId, recipe: RecipeId, kind: Kind, verb: Verb)
    : (o: Outcome<set<(UserId, RecipeId)>>)
    ensures verb == Post ==> (o.Ok? <==> (user, recipe) !in rel)
    ensures verb == Delete ==> (o.Ok? <==> (user, recipe) in rel)
    ensures o.Fail? ==> o.failure == (if verb == Post then AlreadyIn(kind) else NotIn(kind))
    ensures o.Ok? ==> ((user, recipe) in o.value <==> verb == Post)
    ensures o.Ok? ==> forall p :: p != (user, recipe) ==> (p in o.value <==> p in rel)
  {
    match verb
    case Post =>
      // get_or_create: `created` is false exactly when the row exists
      if (user, recipe) in rel then Fail(AlreadyIn(kind)) else Ok(rel + {(user, recipe)})
    case Delete =>
      // filter(...).delete() reports how many rows went
      var remaining := rel - {(user, recipe)};
      if |rel| - |remaining| == 0 then Fail(NotIn(kind)) else Ok(remaining)
  }

  /** The `favorite` and `shopping_cart` actions of backend/api/views.py and
      backend/recipes/api/views.py: a 404 for an unknown recipe, then
      `handle_add_remove` on the matching table. */
  function ApiToggle(s: Store, user: UserId, id: RecipeId, kind: Kind, verb: Verb): (o: Outcome<Store>)
    ensures id !in s.recipes ==> o == Fail(NotFound)
    ensures id in s.recipes && verb == Post ==> (o.Ok? <==> (user, id) !in Table(s, kind))
    ensures id in s.recipes && verb == Delete ==> (o.Ok? <==> (user, id) in Table(s, kind))
    ensures o.Ok? ==> OnlyTableChanges(s, o.value, kind)
    ensures o.Ok? ==> ((user, id) in Table(o.value, kind) <==> verb == Post)
    ensures o.Ok? ==> forall p :: p != (user, id) ==> (p in Table(o.value, kind) <==> p in Table(s, kind))
  {
    if id !in s.recipes then Fail(NotFound)
    else
      match HandleAddRemove(Table(s, kind), user, id, kind, verb)
      case Ok(rel) => Ok(WithTable(s, kind, rel))
      case Fail(f) => Fail(f)
  }

  /** Adding and then removing the same recipe gives back the table it started from. */
  lemma AddThenRemove(rel: set<(UserId, RecipeId)>, user: UserId, recipe: RecipeId, kind: Kind)
    requires (user, recipe) !in rel
    ensures HandleAddRemove(rel, user, recipe, kind, Post).Ok?
    ensures HandleAddRemove(HandleAddRemove(rel, user, recipe, kind, Post).value, user, recipe, kind, Delete) == Ok(rel)
  {
    var added := HandleAddRemove(rel, user, recipe, kind, Post).value;
    var back := HandleAddRemove(added, user, recipe, kind, Delete);
    assert back.Ok? && back.value == rel;
  }

  /** Removing and then re-adding a present pair gives back the same table. */
  lemma RemoveThenAdd(rel: set<(UserId, RecipeId)>, user: UserId, recipe: RecipeId, kind: Kind)
    requires (user, recipe) in rel
    ensures HandleAddRemove(rel, user, recipe, kind, Delete).Ok?
    ensures HandleAddRemove(HandleAddRemove(rel, user, recipe, kind, Delete).value, user, recipe, kind, Post) == Ok(rel)
  {
    var removed := HandleAddRemove(rel, user, recipe, kind, Delete).value;
    var back := HandleAddRemove(removed, user, recipe, kind, Post);
    assert back.Ok? && back.value == rel;
  }

  /** A second identical POST fails, and a second identical DELETE fails. */
  lemma RepeatFails(rel: set<(UserId, RecipeId)>, user: UserId, recipe: RecipeId, kind: Kind, verb: Verb)
    requires HandleAddRemove(rel, user, recipe, kind, verb).Ok?
    ensures HandleAddRemove(HandleAddRemove(rel, user, recipe, kind, verb).value, user, recipe, kind, verb)
            == Fail(if verb == Post then AlreadyIn(kind) else NotIn(kind))
  {
  }

  /** A toggle by a signed-in user keeps the database constraints. */
  lemma ApiToggleKeepsValid(s: Store, user: UserId, id: RecipeId, kind: Kind, verb: Verb)
    requires Valid(s) && user in s.users
    requires ApiToggle(s, user, id, kind, verb).Ok?
    ensures Valid(ApiToggle(s, user, id, kind, verb).value)
  {
    var t := ApiToggle(s, user, id, kind, verb).value;
    assert forall r :: r in t.recipes ==> RecipeValid(t, t.recipes[r]) by {
      forall r | r in t.recipes
        ensures RecipeValid(t, t.recipes[r])
      {
        assert RecipeValid(s, s.recipes[r]);
      }
    }
  }

  // --------------------------------------------- backend/recipes/views.py

  /** `get_object_or_404(Recipe, pk=pk)`: a `pk` of `None` matches no row. */
  function LookupRecipe(s: Store, pk: Option<RecipeId>): (o: Outcome<RecipeId>)
    ensures o.Ok? <==> pk.Some? && pk.value in s.recipes
    ensures o.Ok? ==> o.value == pk.value
    ensures o.Fail? ==> o.failure == NotFound
  {
    if pk.Some? && pk.value in s.recipes then Ok(pk.value) else Fail(NotFound)
  }

  /** The body shared by `favorite` and `shopping_cart` in backend/recipes/views.py:
      POST by get_or_create, DELETE by testing `exists()` before deleting. */
  function RecipesViewsToggle(s: Store, user: UserId, pk: Option<RecipeId>, kind: Kind, verb: Verb): (o: Outcome<Store>)
    ensures pk.None? ==> o == Fail(NotFound)
    ensures o.Ok? ==> pk.Some? && OnlyTableChanges(s, o.value, kind)
  {
    match LookupRecipe(s, pk)
    case Fail(f) => Fail(f)
    case Ok(id) =>
      var rel := Table(s, kind);
      match verb
      case Post =>
        if (user, id) in rel then Fail(AlreadyIn(kind)) else Ok(WithTable(s, kind, rel + {(user, id)}))
      case Delete =>
        if (user, id) in rel then Ok(WithTable(s, kind, rel - {(user, id)})) else Fail(NotIn(kind))
  }

  /** `shopping_cart` of backend/recipes/views.py (a detail route, so the recipe id
      reaches the view). */
  function RecipesViewsCart(s: Store, user: UserId, id: RecipeId, verb: Verb): (o: Outcome<Store>)
    ensures o == ApiToggle(s, user, id, Cart, verb)
  {
    ToggleAgrees(s, user, id, Cart, verb);
    RecipesViewsToggle(s, user, Some(id), Cart, verb)
  }

  /** `favorite` of backend/recipes/views.py as written: declared with
      `detail=False`, its route carries no recipe id, so `pk` is always `None`. */
  function RecipesViewsFavoriteAsWritten(s: Store, user: UserId, verb: Verb): (o: Outcome<Store>)
    ensures o == Fail(NotFound)
  {
    RecipesViewsToggle(s, user, None, Favorites, verb)
  }

  /** `favorite` of backend/recipes/views.py as a detail route, like its
      `shopping_cart` neighbour: it then behaves as the backend/api action. */
  function RecipesViewsFavorite(s: Store, user: UserId, id: RecipeId, verb: Verb): (o: Outcome<Store>)
    ensures o == ApiToggle(s, user, id, Favorites, verb)
  {
    ToggleAgrees(s, user, id, Favorites, verb);
    RecipesViewsToggle(s, user, Some(id), Favorites, verb)
  }

  /** Deleting by "exists, then delete" and by "delete, then count" answer alike,
      so the backend/recipes/views.py actions and the `handle_add_remove` ones
      agree on every input. */
  lemma ToggleAgrees(s: Store, user: UserId, id: RecipeId, kind: Kind, verb: Verb)
    ensures RecipesViewsToggle(s, user, Some(id), kind, verb) == ApiToggle(s, user, id, kind, verb)
  {
    if id in s.recipes && verb == Delete {
      var rel := Table(s, kind);
      if (user, id) in rel {
        assert |rel - {(user, id)}| == |rel| - 1;
      } else {
        assert rel - {(user, id)} == rel;
      }
    }
  }

  /** The favorite action as written answers 404 even for a recipe that exists. */
  lemma FavoriteAsWrittenMissesRecipe(s: Store, user: UserId, id: RecipeId)
    requires id in s.recipes && (user, id) !in s.favorites
    ensures RecipesViewsFavoriteAsWritten(s, user, Post) == Fail(NotFound)
    ensures RecipesViewsFavorite(s, user, id, Post).Ok?
  {
  }

  // ---------------------------------------------------------------- follows

  /** Only the subscription table of `t` may differ from `s`. */
  predicate OnlyFollowsChange(s: Store, t: Store) {
    && t.users == s.users && t.tags == s.tags && t.ingredients == s.ingredients
    && t.recipes == s.recipes && t.favorites == s.favorites && t.carts == s.carts
  }

  /** Nobody follows themselves. No database constraint says so; the views keep it. */
  predicate NoSelfFollow(s: Store) {
    forall p :: p in s.follows ==> p.0 != p.1
  }

  /** `FollowSerializer.validate` of backend/api/serializers.py: a missing target,
      then following oneself, then an existing subscription, in that order. */
  function ValidateFollow(follows: set<(UserId, UserId)>, user: UserId, following: Option<UserId>): (o: Outcome<UserId>)
    ensures following.None? ==> o == Fail(NoTarget)
    ensures following.Some? && following.value == user ==> o == Fail(SelfFollow)
    ensures following.Some? && following.value != user && (user, following.value) in follows ==> o == Fail(AlreadySubscribed)
    ensures o.Ok? <==> following.Some? && following.value != user && (user, following.value) !in follows
    ensures o.Ok? ==> o.value == following.value
  {
    match following
    case None => Fail(NoTarget)
    case Some(target) =>
      if user == target then Fail(SelfFollow)
      else if (user, target) in follows then Fail(AlreadySubscribed)
      else Ok(target)
  }

  /** The DELETE branch shared by backend/api/views.py and
      backend/recipes/api/views.py: delete the row, and fail when none went. */
  function Unsubscribe(s: Store, user: UserId, id: UserId): (o: Outcome<Store>)
    ensures o.Ok? <==> (user, id) in s.follows
    ensures o.Fail? ==> o.failure == NotSubscribed
    ensures o.Ok? ==> OnlyFollowsChange(s, o.value) && o.value.follows == s.follows - {(user, id)}
  {
    var remaining := s.follows - {(user, id)};
    if |s.follows| - |remaining| == 0 then Fail(NotSubscribed)
    else Ok(s.(follows := remaining))
  }

  /** `UserViewSet.subscribe` of backend/api/views.py with the context entry
      `following_user` the serializer reads: a 404 for an unknown user, then either
      the serializer's checks and the insert, or the delete. */
  function ApiSubscribeWith(s: Store, user: UserId, id: UserId, verb: Verb, following: Option<UserId>): (o: Outcome<Store>)
    ensures id !in s.users ==> o == Fail(NotFound)
    ensures id in s.users && verb == Post ==>
              match ValidateFollow(s.follows, user, following)
              case Fail(f) => o == Fail(f)
              case Ok(t) => o == Ok(s.(follows := s.follows + {(user, t)}))
    ensures id in s.users && verb == Delete ==> o == Unsubscribe(s, user, id)
  {
    if id !in s.users then Fail(NotFound)
    else
      match verb
      case Post =>
        (match ValidateFollow(s.follows, user, following)
         case Fail(f) => Fail(f)
         case Ok(t) => Ok(s.(follows := s.follows + {(user, t)})))
      case Delete => Unsubscribe(s, user, id)
  }

  /** As written the view builds the serializer with only the request in its
      context, so `following_user` is absent. */
  function ApiSubscribeAsWritten(s: Store, user: UserId, id: UserId, verb: Verb): (o: Outcome<Store>)
    ensures id in s.users && verb == Post ==> o == Fail(NoTarget)
    ensures verb == Delete ==> o == ApiSubscribeFixed(s, user, id, verb)
  {
    ApiSubscribeWith(s, user, id, verb, None)
  }

  /** The view passing the looked-up user as `following_user`. */
  function ApiSubscribeFixed(s: Store, user: UserId, id: UserId, verb: Verb): (o: Outcome<Store>)
    ensures id !in s.users ==> o == Fail(NotFound)
    ensures verb == Post && id in s.users ==>
              (o.Ok? <==> id != user && (user, id) !in s.follows)
    ensures verb == Post && o.Ok? ==> OnlyFollowsChange(s, o.value) && o.value.follows == s.follows + {(user, id)}
    ensures verb == Delete && id in s.users ==> o == Unsubscribe(s, user, id)
  {
    ApiSubscribeWith(s, user, id, verb, Some(id))
  }

  /** Subscribing to an existing other user never succeeds as written, and does in
      the fixed view whenever the subscription is new. */
  lemma ApiSubscribeNeverCreates(s: Store, user: UserId, id: UserId)
    requires id in s.users && id != user && (user, id) !in s.follows
    ensures ApiSubscribeAsWritten(s, user, id, Post) == Fail(NoTarget)
    ensures ApiSubscribeFixed(s, user, id, Post) == Ok(s.(follows := s.follows + {(user, id)}))
  {
  }

  /** `FollowSerializer.validate_following` of backend/recipes/api/serializers.py. */
  function ValidateFollowing(follows: set<(UserId, UserId)>, user: UserId, value: UserId): (o: Outcome<UserId>)
    ensures o.Ok? <==> value != user && (user, value) !in follows
    ensures value == user ==> o == Fail(SelfFollow)
    ensures value != user && (user, value) in follows ==> o == Fail(AlreadySubscribed)
    ensures o.Ok? ==> o.value == value
  {
    if user == value then Fail(SelfFollow)
    else if (user, value) in follows then Fail(AlreadySubscribed)
    else Ok(value)
  }

  /** `UserViewSet.subscribe` of backend/recipes/api/views.py as written. The
      serializer declares no `following` field, so the submitted id is dropped,
      `validate_following` never runs, and `save()` inserts a Follow row without a
      user or a target, which the NOT NULL columns refuse. */
  function RecipesApiSubscribeAsWritten(s: Store, user: UserId, id: UserId, verb: Verb): (o: Outcome<Store>)
    ensures id !in s.users ==> o == Fail(NotFound)
    ensures id in s.users && verb == Post ==> o == Fail(IntegrityError)
    ensures verb == Delete ==> o == RecipesApiSubscribe(s, user, id, verb)
  {
    if id !in s.users then Fail(NotFound)
    else
      match verb
      case Post => Fail(IntegrityError)
      case Delete => Unsubscribe(s, user, id)
  }

  /** The same view with `following` declared on the serializer and the requester
      passed to `save()`: `validate_following` guards the insert. */
  function RecipesApiSubscribe(s: Store, user: UserId, id: UserId, verb: Verb): (o: Outcome<Store>)
    ensures id !in s.users ==> o == Fail(NotFound)
    ensures o.Ok? && verb == Post ==> OnlyFollowsChange(s, o.value) && o.value.follows == s.follows + {(user, id)}
    ensures o.Ok? && verb == Delete ==> OnlyFollowsChange(s, o.value) && o.value.follows == s.follows - {(user, id)}
    ensures id in s.users ==> (o.Ok? <==> if verb == Post then id != user && (user, id) !in s.follows else (user, id) in s.follows)
  {
    if id !in s.users then Fail(NotFound)
    else
      match verb
      case Post =>
        (match ValidateFollowing(s.follows, user, id)
         case Fail(f) => Fail(f)
         case Ok(t) => Ok(s.(follows := s.follows + {(user, t)})))
      case Delete => Unsubscribe(s, user, id)
  }

  /** `subscribe` of backend/recipes/views.py: a 404 for an unknown user, then
      following oneself is refused for both verbs before any table is read. */
  function RecipesViewsSubscribe(s: Store, user: UserId, id: UserId, verb: Verb): (o: Outcome<Store>)
    ensures id !in s.users ==> o == Fail(NotFound)
    ensures id in s.users && id == user ==> o == Fail(SelfFollow)
    ensures id in s.users && id != user && verb == Post ==>
              (if (user, id) in s.follows then o == Fail(AlreadySubscribed)
               else o == Ok(s.(follows := s.follows + {(user, id)})))
    ensures id in s.users && id != user && verb == Delete ==>
              (if (user, id) in s.follows then o == Ok(s.(follows := s.follows - {(user, id)}))
               else o == Fail(NotSubscribed))
  {
    if id !in s.users then Fail(NotFound)
    else if user == id then Fail(SelfFollow)
    else
      match verb
      case Post =>
        if (user, id) in s.follows then Fail(AlreadySubscribed)
        else Ok(s.(follows := s.follows + {(user, id)}))
      case Delete =>
        if (user, id) in s.follows then Ok(s.(follows := s.follows - {(user, id)}))
        else Fail(NotSubscribed)
  }

  /** The three subscription views, once the two broken POST paths are mended,
      reach the same new store on every input; the only difference left is the
      error a user gets for unsubscribing from themselves. */
  lemma SubscribeVariantsAgree(s: Store, user: UserId, id: UserId, verb: Verb)
    ensures ApiSubscribeFixed(s, user, id, verb) == RecipesApiSubscribe(s, user, id, verb)
    ensures verb == Post ==> RecipesViewsSubscribe(s, user, id, verb) == RecipesApiSubscribe(s, user, id, verb)
    ensures verb == Delete && id != user ==> RecipesViewsSubscribe(s, user, id, verb) == RecipesApiSubscribe(s, user, id, verb)
    ensures NoSelfFollow(s) && id in s.users && id == user ==>
              RecipesApiSubscribe(s, user, id, verb).Fail? && RecipesViewsSubscribe(s, user, id, verb) == Fail(SelfFollow)
  {
    if id in s.users && verb == Delete {
      if (user, id) in s.follows {
        assert |s.follows - {(user, id)}| == |s.follows| - 1;
      } else {
        assert s.follows - {(user, id)} == s.follows;
      }
    }
  }

  /** No successful subscription action lets anyone follow themselves, and each
      keeps the foreign keys of the table. */
  lemma SubscribeKeepsInvariants(s: Store, user: UserId, id: UserId, verb: Verb)
    requires NoSelfFollow(s) && Valid(s) && user in s.users
    ensures ApiSubscribeFixed(s, user, id, verb).Ok? ==>
              NoSelfFollow(ApiSubscribeFixed(s, user, id, verb).value) && Valid(ApiSubscribeFixed(s, user, id, verb).value)
    ensures RecipesApiSubscribe(s, user, id, verb).Ok? ==>
              NoSelfFollow(RecipesApiSubscribe(s, user, id, verb).value) && Valid(RecipesApiSubscribe(s, user, id, verb).value)
    ensures RecipesViewsSubscribe(s, user, id, verb).Ok? ==>
              NoSelfFollow(RecipesViewsSubscribe(s, user, id, verb).value) && Valid(RecipesViewsSubscribe(s, user, id, verb).value)
  {
    SubscribeVariantsAgree(s, user, id, verb);
    var o := RecipesApiSubscribe(s, user, id, verb);
    if o.Ok? {
      var t := o.value;
      assert OnlyFollowsChange(s, t);
      assert forall r :: r in t.recipes ==> RecipeValid(t, t.recipes[r]) by {
        forall r | r in t.recipes
          ensures RecipeValid(t, t.recipes[r])
        {
          assert RecipeValid(s, s.recipes[r]);
        }
      }
    }
    var v := RecipesViewsSubscribe(s, user, id, verb);
    if v.Ok? {
      var t := v.value;
      assert forall r :: r in t.recipes ==> RecipeValid(t, t.recipes[r]) by {
        forall r | r in t.recipes
          ensures RecipeValid(t, t.recipes[r])
        {
          assert RecipeValid(s, s.recipes[r]);
        }
      }
    }
  }

  /** Subscribing and then unsubscribing restores the table. */
  lemma SubscribeThenUnsubscribe(s: Store, user: UserId, id: UserId)
    requires RecipesViewsSubscribe(s, user, id, Post).Ok?
    ensures RecipesViewsSubscribe(RecipesViewsSubscribe(s, user, id, Post).value, user, id, Delete) == Ok(s)
  {
    var t := RecipesViewsSubscribe(s, user, id, Post).value;
    assert t.follows - {(user, id)} == s.follows;
  }
}

=== FILE: shopping_list.dfy ===
/** The "download shopping list" endpoint in its three versions, and the plain-text
    document they produce: a title line, a recipes section (one bullet per recipe
    name, sorted), and an ingredients section (one bullet per ingredient,
    `name: amount unit`, in the order the grouping pass first met each name),
    all joined with newlines.

    - backend/api/views.py and backend/recipes/api/views.py walk the ingredient rows
      of the cart recipes; an empty cart gives the bare headers, and only recipes
      that contributed a row are listed. Their bullet is an en dash.
    - backend/recipes/views.py walks the cart entries; an empty cart is an error,
      and every cart recipe is listed, with or without ingredient rows. Its bullet
      is a hyphen between spaces. */
module ShoppingList {
  import opened Common
  import opened Text
  import opened Aggregation

  const Title: string := "Список покупок:"
  const RecipesHeading: string := "\nИспользуемые рецепты:"
  const IngredientsHeading: string := "\nИнгредиенты:"
  /** The bullet of backend/api and backend/recipes/api. */
  const Dash: string := "– "
  /** The bullet of backend/recipes/views.py. */
  const Hyphen: string := " - "

  /** `f'{bullet}{name}: {amount} {unit}'`. */
  function IngredientLine(bullet: string, t: Total): string {
    bullet + t.name + ": " + ShowNat(t.amount) + " " + t.unit
  }

  function Bullets(bullet: string, names: seq<string>): (r: seq<string>)
    ensures |r| == |names|
    ensures forall i :: 0 <= i < |names| ==> r[i] == bullet + names[i]
  {
    seq(|names|, i requires 0 <= i < |names| => bullet + names[i])
  }

  function IngredientLines(bullet: string, ts: seq<Total>): (r: seq<string>)
    ensures |r| == |ts|
    ensures forall i :: 0 <= i < |ts| ==> r[i] == IngredientLine(bullet, ts[i])
  {
    seq(|ts|, i requires 0 <= i < |ts| => IngredientLine(bullet, ts[i]))
  }

  /** The `lines` list before the join, position by position. */
  function Lines(bullet: string, recipes: seq<string>, totals: seq<Total>): (lines: seq<string>)
    ensures |lines| == 3 + |recipes| + |totals|
    ensures lines[0] == Title && lines[1] == RecipesHeading
    ensures forall i :: 0 <= i < |recipes| ==> lines[2 + i] == bullet + recipes[i]
    ensures lines[2 + |recipes|] == IngredientsHeading
    ensures forall i :: 0 <= i < |totals| ==> lines[3 + |recipes| + i] == IngredientLine(bullet, totals[i])
  {
    [Title, RecipesHeading] + Bullets(bullet, recipes) + [IngredientsHeading] + IngredientLines(bullet, totals)
  }

  /** What a download lists: the recipe names in output order and the totals. */
  datatype Summary = Summary(recipes: seq<string>, totals: seq<Total>)

  /** `content = '\n'.join(lines)`. */
  function Document(bullet: string, s: Summary): string {
    JoinLines(Lines(bullet, s.recipes, s.totals))
  }

  function RecipeNames(rows: seq<Row>): (r: seq<string>)
    ensures Elems(r) == RecipesOf(rows)
  {
    var r := seq(|rows|, k requires 0 <= k < |rows| => rows[k].recipe);
    assert Elems(r) == RecipesOf(rows) by {
      forall x | x in Elems(r)
        ensures x in RecipesOf(rows)
      {
        var k :| 0 <= k < |r| && r[k] == x;
      }
      forall x | x in RecipesOf(rows)
        ensures x in Elems(r)
      {
        var k :| 0 <= k < |rows| && rows[k].recipe == x;
        assert r[k] == x;
      }
    }
    r
  }

  // ------------------------------------------------ backend/api/views.py

  /** The loop of `download_shopping_cart` over the cart's ingredient rows: the
      recipes listed are exactly the recipes that contributed a row, sorted, each
      once; the totals are the grouping pass over the rows. */
  function ApiSummary(rows: seq<Row>): (s: Summary)
    ensures StrictlySorted(s.recipes)
    ensures Elems(s.recipes) == RecipesOf(rows)
    ensures Summarizes(s.totals, rows)
  {
    TallySummarizes(rows);
    Summary(SortedSet(RecipeNames(rows)), Tally(rows))
  }

  /** The response body of backend/api/views.py `download_shopping_cart`. */
  function ApiDownload(rows: seq<Row>): string {
    Document(Dash, ApiSummary(rows))
  }

  /** An empty cart is no error: the document holds the three headings only. */
  lemma ApiEmptyCartGivesHeadings()
    ensures ApiDownload([]) == Title + "\n" + RecipesHeading + "\n" + IngredientsHeading
  {
    var s := ApiSummary([]);
    assert s.recipes == [] by {
      assert Elems(s.recipes) == {};
      ElemsEmptyIff(s.recipes);
    }
    assert s.totals == [];
    var lines := Lines(Dash, [], []);
    assert lines == [Title, RecipesHeading, IngredientsHeading];
    assert lines[1..][1..] == [IngredientsHeading];
    assert JoinLines(lines[1..]) == RecipesHeading + "\n" + IngredientsHeading;
  }

  const ExampleRows: seq<Row> := [Row("X", "carrot", "g", 1), Row("X", "salt", "g", 2), Row("Y", "carrot", "g", 4)]

  lemma ExampleTotals()
    ensures Tally(ExampleRows) == [Total("carrot", 5, "g"), Total("salt", 2, "g")]
  {
    var rows := ExampleRows;
    assert rows[..1][..0] == [];
    assert rows[..2][..1] == rows[..1];
    assert rows[..3][..2] == rows[..2];
    assert rows[..3] == rows;
    var t1 := [Total("carrot", 1, "g")];
    assert IndexOf([], "carrot") == 0;
    assert Tally(rows[..1]) == t1 by {
      assert Tally(rows[..1]) == Bump([], rows[0]);
    }
    var t2 := t1 + [Total("salt", 2, "g")];
    assert Tally(rows[..2]) == t2 by {
      assert IndexOf(t1, "salt") == 1;
      assert Tally(rows[..2]) == Bump(t1, rows[1]);
    }
    assert IndexOf(t2, "carrot") == 0;
    assert Tally(rows[..3]) == Bump(t2, rows[2]);
  }

  lemma ExampleRecipes()
    ensures RecipesOf(ExampleRows) == {"X", "Y"}
  {
    var rows := ExampleRows;
    forall x | x in RecipesOf(rows)
      ensures x in {"X", "Y"}
    {
      var k :| 0 <= k < |rows| && rows[k].recipe == x;
    }
    assert rows[0].recipe == "X" && rows[2].recipe == "Y";
  }

  /** Two cart recipes sharing an ingredient: the recipes come out sorted, and
      the shared ingredient is added up and listed where it was first met. */
  lemma SortedPair(a: seq<string>, x: string, y: string)
    requires Below(x, y) && StrictlySorted(a) && Elems(a) == {x, y}
    ensures a == [x, y]
  {
    assert Elems([x, y]) == {x, y};
    SortedUnique([x, y], a);
  }

  lemma TwoRecipeCart(rows: seq<Row>)
    requires rows == ExampleRows
    ensures ApiSummary(rows) == Summary(["X", "Y"], [Total("carrot", 5, "g"), Total("salt", 2, "g")])
  {
    var s := ApiSummary(rows);
    ExampleTotals();
    ExampleRecipes();
    assert Below("X", "Y");
    SortedPair(s.recipes, "X", "Y");
  }

  // ---------------------------------------- backend/recipes/api/views.py

  /** `sorted(recipes_used)` for a set built in a loop. */
  method SortNames(names: set<string>) returns (r: seq<string>)
    ensures StrictlySorted(r)
    ensures Elems(r) == names
  {
    r := [];
    var rest := names;
    while rest != {}
      invariant StrictlySorted(r)
      invariant Elems(r) + rest == names
      decreases rest
    {
      var x :| x in rest;
      r := Insert(r, x);
      rest := rest - {x};
    }
  }

  /** backend/recipes/api/views.py `download_shopping_cart`, written as the loop
      the view runs: the dictionary and the set are filled row by row, the set is
      sorted, the lines are joined. It produces exactly the backend/api document. */
  method RecipesApiDownload(rows: seq<Row>) returns (doc: string)
    ensures doc == ApiDownload(rows)
  {
    var totals: seq<Total> := [];
    var used: set<string> := {};
    var i := 0;
    while i < |rows|
      invariant 0 <= i <= |rows|
      invariant totals == Tally(rows[..i])
      invariant used == RecipesOf(rows[..i])
    {
      assert rows[..i + 1][..i] == rows[..i];
      assert RecipesOf(rows[..i + 1]) == RecipesOf(rows[..i]) + {rows[i].recipe} by {
        assert rows[..i + 1][i] == rows[i];
        forall x | x in RecipesOf(rows[..i + 1])
          ensures x in RecipesOf(rows[..i]) + {rows[i].recipe}
        {
          var k :| 0 <= k < i + 1 && rows[..i + 1][k].recipe == x;
          if k < i {
            assert rows[..i][k] == rows[..i + 1][k];
          }
        }
        forall x | x in RecipesOf(rows[..i])
          ensures x in RecipesOf(rows[..i + 1])
        {
          var k :| 0 <= k < i && rows[..i][k].recipe == x;
          assert rows[..i + 1][k] == rows[..i][k];
        }
      }
      totals := Bump(totals, rows[i]);
      used := used + {rows[i].recipe};
      i := i + 1;
    }
    assert rows[..i] == rows;
    var names := SortNames(used);
    SortedUnique(names, ApiSummary(rows).recipes);
    doc := JoinLines(Lines(Dash, names, totals));
  }

  // -------------------------------------------- backend/recipes/views.py

  datatype CartLine = CartLine(ingredient: string, unit: string, amount: nat)

  /** A recipe in the user's cart with its ingredient rows. */
  datatype CartRecipe = CartRecipe(name: string, lines: seq<CartLine>)

  function RowsOf(c: CartRecipe): (r: seq<Row>)
    ensures |r| == |c.lines|
    ensures forall k :: 0 <= k < |r| ==> r[k].recipe == c.name
  {
    seq(|c.lines|, k requires 0 <= k < |c.lines| =>
      Row(c.name, c.lines[k].ingredient, c.lines[k].unit, c.lines[k].amount))
  }

  /** The rows the nested loops visit, cart entry by cart entry. */
  function Flatten(carts: seq<CartRecipe>): seq<Row> {
    if |carts| == 0 then [] else RowsOf(carts[0]) + Flatten(carts[1..])
  }

  function CartNames(carts: seq<CartRecipe>): seq<string> {
    seq(|carts|, k requires 0 <= k < |carts| => carts[k].name)
  }

  /** backend/recipes/views.py `download_shopping_cart`: an empty cart is
      refused; otherwise every cart recipe is listed, sorted and each once, and the
      totals are the grouping pass over all of their ingredient rows. */
  function RecipesSummary(carts: seq<CartRecipe>): (o: Outcome<Summary>)
    ensures o.Fail? <==> |carts| == 0
    ensures o.Fail? ==> o.failure == EmptyCart
    ensures o.Ok? ==>
              && StrictlySorted(o.value.recipes)
              && (forall k :: 0 <= k < |carts| ==> carts[k].name in o.value.recipes)
              && (forall x :: x in o.value.recipes ==> exists k :: 0 <= k < |carts| && carts[k].name == x)
              && Summarizes(o.value.totals, Flatten(carts))
  {
    if |carts| == 0 then Fail(EmptyCart)
    else
      var names := CartNames(carts);
      var sorted := SortedSet(names);
      assert forall k :: 0 <= k < |carts| ==> carts[k].name in Elems(sorted) by {
        forall k | 0 <= k < |carts|
          ensures carts[k].name in Elems(sorted)
        {
          assert names[k] == carts[k].name;
        }
      }
      assert forall x :: x in sorted ==> exists k :: 0 <= k < |carts| && carts[k].name == x by {
        forall x | x in sorted
          ensures exists k :: 0 <= k < |carts| && carts[k].name == x
        {
          assert x in Elems(names);
          var k :| 0 <= k < |names| && names[k] == x;
        }
      }
      TallySummarizes(Flatten(carts));
      Ok(Summary(sorted, Tally(Flatten(carts))))
  }

  function RecipesDownload(carts: seq<CartRecipe>): Outcome<string> {
    match RecipesSummary(carts)
    case Ok(s) => Ok(Document(Hyphen, s))
    case Fail(f) => Fail(f)
  }

  /** The cart recipes that have at least one ingredient row. */
  function Contributing(carts: seq<CartRecipe>): set<string> {
    set k | 0 <= k < |carts| && |carts[k].lines| > 0 :: carts[k].name
  }

  lemma {:induction false} FlattenRecipes(carts: seq<CartRecipe>)
    ensures RecipesOf(Flatten(carts)) == Contributing(carts)
  {
    if |carts| > 0 {
      FlattenRecipes(carts[1..]);
      var head := RowsOf(carts[0]);
      var tail := Flatten(carts[1..]);
      assert Flatten(carts) == head + tail;
      assert RecipesOf(head + tail) == RecipesOf(head) + RecipesOf(tail) by {
        forall x | x in RecipesOf(head + tail)
          ensures x in RecipesOf(head) + RecipesOf(tail)
        {
          var k :| 0 <= k < |head + tail| && (head + tail)[k].recipe == x;
          if k >= |head| {
            assert tail[k - |head|] == (head + tail)[k];
          }
        }
        forall x | x in RecipesOf(head) + RecipesOf(tail)
          ensures x in RecipesOf(head + tail)
        {
          if x in RecipesOf(head) {
            var k :| 0 <= k < |head| && head[k].recipe == x;
            assert (head + tail)[k] == head[k];
          } else {
            var k :| 0 <= k < |tail| && tail[k].recipe == x;
            assert (head + tail)[|head| + k] == tail[k];
          }
        }
      }
      assert RecipesOf(head) == (if |carts[0].lines| > 0 then {carts[0].name} else {}) by {
        if |carts[0].lines| > 0 {
          assert head[0].recipe == carts[0].name;
        }
      }
      assert Contributing(carts) == (if |carts[0].lines| > 0 then {carts[0].name} else {}) + Contributing(carts[1..]) by {
        forall x | x in Contributing(carts)
          ensures x in (if |carts[0].lines| > 0 then {carts[0].name} else {}) + Contributing(carts[1..])
        {
          var k :| 0 <= k < |carts| && |carts[k].lines| > 0 && carts[k].name == x;
          if k > 0 {
            assert carts[1..][k - 1] == carts[k];
          }
        }
        forall x | x in Contributing(carts[1..])
          ensures x in Contributing(carts)
        {
          var k :| 0 <= k < |carts[1..]| && |carts[1..][k].lines| > 0 && carts[1..][k].name == x;
          assert carts[k + 1] == carts[1..][k];
        }
      }
    } else {
      assert Contributing(carts) == {};
    }
  }

  /** On a non-empty cart the two row-walking variants add up the same totals in
      the same order; backend/api lists only the recipes that contributed a row,
      backend/recipes/views.py lists every cart recipe, and the two lists coincide
      when every cart recipe has ingredients. */
  lemma VariantsAgree(carts: seq<CartRecipe>)
    requires |carts| > 0
    ensures RecipesSummary(carts).Ok?
    ensures ApiSummary(Flatten(carts)).totals == RecipesSummary(carts).value.totals
    ensures Elems(ApiSummary(Flatten(carts)).recipes) == Contributing(carts)
    ensures (forall k :: 0 <= k < |carts| ==> |carts[k].lines| > 0) ==>
              ApiSummary(Flatten(carts)).recipes == RecipesSummary(carts).value.recipes
  {
    FlattenRecipes(carts);
    var a := ApiSummary(Flatten(carts)).recipes;
    var b := RecipesSummary(carts).value.recipes;
    if forall k :: 0 <= k < |carts| ==> |carts[k].lines| > 0 {
      assert Elems(a) == Elems(b) by {
        forall x | x in Elems(b)
          ensures x in Elems(a)
        {
          var k :| 0 <= k < |carts| && carts[k].name == x;
        }
      }
      SortedUnique(a, b);
    }
  }
}

=== FILE: text.dfy ===
/** The small pieces of Python string behaviour the views and serializers rely on:
    `str.isdigit` and `int(...)` on strings, `str(n)` of a natural number,
    `str.strip`, the code-point order that `sorted` uses on strings, and
    `"\n".join`. Character classes are the ASCII ones. */
module Text {
  import opened Common

  // ---------------------------------------------------------------- digits

  predicate IsDigit(c: char) {
    '0' <= c <= '9'
  }

  /** `s.isdigit()`: non-empty and made of digits only. */
  predicate IsDigits(s: string) {
    |s| > 0 && forall i :: 0 <= i < |s| ==> IsDigit(s[i])
  }

  function DigitChar(d: nat): (c: char)
    requires d < 10
    ensures IsDigit(c)
  {
    ('0' as int + d) as char
  }

  function DigitOf(c: char): (d: nat)
    requires IsDigit(c)
    ensures d < 10 && DigitChar(d) == c
  {
    c as int - '0' as int
  }

  /** The value of a digit string read most-significant digit first. */
  function DigitsValue(s: string): nat
    requires forall i :: 0 <= i < |s| ==> IsDigit(s[i])
  {
    if |s| == 0 then 0
    else DigitsValue(s[..|s| - 1]) * 10 + DigitOf(s[|s| - 1])
  }

  /** `str(n)` for a natural number: decimal digits, no leading zero. */
  function ShowNat(n: nat): (s: string)
    ensures IsDigits(s)
    ensures s[0] == '0' ==> n == 0
  {
    if n < 10 then [DigitChar(n)] else ShowNat(n / 10) + [DigitChar(n % 10)]
  }

  /** Reading back what `ShowNat` printed gives the number again. */
  lemma {:induction false} ShowNatRoundTrip(n: nat)
    ensures DigitsValue(ShowNat(n)) == n
  {
    if n >= 10 {
      var s := ShowNat(n);
      var p := ShowNat(n / 10);
      assert s[..|s| - 1] == p;
      ShowNatRoundTrip(n / 10);
    }
  }

  // ------------------------------------------------------------ whitespace

  /** The characters `str.strip()` and `int()` skip (ASCII part): blank, tab, the
      line breaks, vertical tab, form feed, and the four separators 0x1C to 0x1F. */
  predicate IsSpace(c: char) {
    || c == ' ' || c == '\t' || c == '\n' || c == '\r' || c == '\U{B}' || c == '\U{C}'
    || c == '\U{1C}' || c == '\U{1D}' || c == '\U{1E}' || c == '\U{1F}'
  }

  function StripLeft(s: string): (r: string)
    ensures |r| <= |s| && r == s[|s| - |r|..]
    ensures |r| > 0 ==> !IsSpace(r[0])
    ensures forall i :: 0 <= i < |s| - |r| ==> IsSpace(s[i])
  {
    if |s| > 0 && IsSpace(s[0]) then StripLeft(s[1..]) else s
  }

  function StripRight(s: string): (r: string)
    ensures |r| <= |s| && r == s[..|r|]
    ensures |r| > 0 ==> !IsSpace(r[|r| - 1])
    ensures forall i :: |r| <= i < |s| ==> IsSpace(s[i])
  {
    if |s| > 0 && IsSpace(s[|s| - 1]) then StripRight(s[..|s| - 1]) else s
  }

  /** `s.strip()`. */
  function Strip(s: string): string {
    StripRight(StripLeft(s))
  }

  /** `s.strip() == ""` holds exactly when every character is whitespace. */
  lemma StripEmptyIffAllSpace(s: string)
    ensures Strip(s) == "" <==> forall i :: 0 <= i < |s| ==> IsSpace(s[i])
  {
  }

  /** A string that starts with a visible character does not strip to nothing. */
  lemma StripNonBlank(s: string)
    requires |s| > 0 && !IsSpace(s[0])
    ensures Strip(s) != ""
  {
    assert StripLeft(s) == s;
  }

  /** A digit string has nothing to strip. */
  lemma StripDigits(s: string)
    requires IsDigits(s)
    ensures Strip(s) == s
  {
    assert !IsSpace(s[0]) && !IsSpace(s[|s| - 1]);
  }

  // ------------------------------------------------------- int() of a string

  /** `int(s)` for a string: surrounding whitespace, an optional sign, then
      decimal digits; anything else raises ValueError (here `None`). */
  function PyIntOfString(s: string): (r: Option<int>)
    ensures IsDigits(s) ==> r == Some(DigitsValue(s))
  {
    var t := Strip(s);
    if IsDigits(s) then StripDigits(s); assert t == s;
      Some(DigitsValue(t))
    else if |t| > 0 && (t[0] == '-' || t[0] == '+') && IsDigits(t[1..]) then
      var v: int := if t[0] == '-' then -(DigitsValue(t[1..]) as int) else DigitsValue(t[1..]);
      Some(v)
    else if IsDigits(t) then Some(DigitsValue(t))
    else None
  }

  /** `int(s)` succeeds only on strings that hold at least one digit. */
  lemma PyIntNeedsADigit(s: string)
    requires PyIntOfString(s).Some?
    ensures exists i :: 0 <= i < |s| && IsDigit(s[i])
  {
    var t := Strip(s);
    var l := StripLeft(s);
    assert t == l[..|t|];
    if IsDigits(s) {
      assert IsDigit(s[0]);
    } else if |t| > 0 && (t[0] == '-' || t[0] == '+') && IsDigits(t[1..]) {
      assert IsDigit(t[1]);
      assert s[|s| - |l| + 1] == t[1];
    } else {
      assert IsDigit(t[0]);
      assert s[|s| - |l|] == t[0];
    }
  }

  // ------------------------------------------------------- code-point order

  /** Python's `a < b` on `str`: lexicographic over code points, a proper
      prefix sorting first. */
  predicate Below(a: string, b: string)
    decreases |a|
  {
    if |a| == 0 then |b| > 0
    else |b| > 0 && (a[0] < b[0] || (a[0] == b[0] && Below(a[1..], b[1..])))
  }

  lemma {:induction false} BelowIrreflexive(a: string)
    ensures !Below(a, a)
    decreases |a|
  {
    if |a| > 0 {
      BelowIrreflexive(a[1..]);
    }
  }

  lemma {:induction false} BelowTransitive(a: string, b: string, c: string)
    requires Below(a, b) && Below(b, c)
    ensures Below(a, c)
    decreases |a|
  {
    if |a| > 0 && a[0] == b[0] && b[0] == c[0] {
      BelowTransitive(a[1..], b[1..], c[1..]);
    }
  }

  /** Any two distinct strings are ordered one way or the other, and never both. */
  lemma {:induction false} BelowTotal(a: string, b: string)
    ensures a == b || Below(a, b) || Below(b, a)
    ensures !(Below(a, b) && Below(b, a))
    decreases |a|
  {
    if |a| > 0 && |b| > 0 && a[0] == b[0] {
      BelowTotal(a[1..], b[1..]);
      if a[1..] == b[1..] {
        assert a == [a[0]] + a[1..] && b == [b[0]] + b[1..];
      }
    }
  }

  // --------------------------------------------------------------- sorting

  predicate StrictlySorted(xs: seq<string>) {
    forall i, j :: 0 <= i < j < |xs| ==> Below(xs[i], xs[j])
  }

  /** Puts `x` into a strictly sorted list, dropping it when already present. */
  function Insert(xs: seq<string>, x: string): (r: seq<string>)
    requires StrictlySorted(xs)
    ensures StrictlySorted(r)
    ensures Elems(r) == Elems(xs) + {x}
  {
    if |xs| == 0 then [x]
    else if x == xs[0] then xs
    else if Below(x, xs[0]) then
      assert forall j :: 0 < j < |xs| ==> Below(xs[0], xs[j]);
      InsertFrontSorted(xs, x);
      [x] + xs
    else
      var rest := Insert(xs[1..], x);
      assert xs == [xs[0]] + xs[1..];
      InsertBehindSorted(xs, x, rest);
      assert Elems([xs[0]] + rest) == {xs[0]} + Elems(rest);
      assert Elems(xs) == {xs[0]} + Elems(xs[1..]);
      [xs[0]] + rest
  }

  lemma InsertBehindSorted(xs: seq<string>, x: string, rest: seq<string>)
    requires StrictlySorted(xs) && |xs| > 0 && x != xs[0] && !Below(x, xs[0])
    requires StrictlySorted(rest) && Elems(rest) == Elems(xs[1..]) + {x}
    ensures StrictlySorted([xs[0]] + rest)
  {
    BelowTotal(x, xs[0]);
    forall k | 0 <= k < |rest|
      ensures Below(xs[0], rest[k])
    {
      assert rest[k] in Elems(rest);
      if rest[k] != x {
        var m :| 0 <= m < |xs[1..]| && xs[1..][m] == rest[k];
        assert xs[m + 1] == rest[k];
      }
    }
    var r := [xs[0]] + rest;
    forall i, j | 0 <= i < j < |r|
      ensures Below(r[i], r[j])
    {
      if i > 0 {
        assert r[i] == rest[i - 1] && r[j] == rest[j - 1];
      } else {
        assert r[j] == rest[j - 1];
      }
    }
  }

  lemma InsertFrontSorted(xs: seq<string>, x: string)
    requires StrictlySorted(xs) && |xs| > 0 && Below(x, xs[0])
    ensures StrictlySorted([x] + xs)
  {
    forall j | 0 < j < |xs|
      ensures Below(x, xs[j])
    {
      BelowTransitive(x, xs[0], xs[j]);
    }
  }

  /** `sorted(set(xs))`: the distinct elements in ascending code-point order. */
  function SortedSet(xs: seq<string>): (r: seq<string>)
    ensures StrictlySorted(r)
    ensures Elems(r) == Elems(xs)
  {
    if |xs| == 0 then []
    else
      assert xs == xs[..|xs| - 1] + [xs[|xs| - 1]];
      Insert(SortedSet(xs[..|xs| - 1]), xs[|xs| - 1])
  }

  lemma ElemsEmptyIff(xs: seq<string>)
    ensures Elems(xs) == {} <==> |xs| == 0
  {
    if |xs| > 0 {
      assert xs[0] in Elems(xs);
    }
  }

  /** A strictly sorted list is determined by its elements: whatever order a
      set is built in, sorting it gives one list. */
  lemma {:induction false} SortedUnique(a: seq<string>, b: seq<string>)
    requires StrictlySorted(a) && StrictlySorted(b)
    requires Elems(a) == Elems(b)
    ensures a == b
    decreases |a|
  {
    ElemsEmptyIff(a);
    ElemsEmptyIff(b);
    if |a| > 0 && |b| > 0 {
      if a[0] != b[0] {
        assert b[0] in Elems(a) && a[0] in Elems(b);
        var i :| 0 <= i < |a| && a[i] == b[0];
        var j :| 0 <= j < |b| && b[j] == a[0];
        BelowTotal(a[0], b[0]);
      } else {
        var x := a[0];
        assert a == [x] + a[1..] && b == [x] + b[1..];
        assert x !in a[1..] by {
          if x in a[1..] {
            var k :| 0 <= k < |a[1..]| && a[1..][k] == x;
            assert Below(a[0], a[k + 1]);
            BelowIrreflexive(x);
          }
        }
        assert x !in b[1..] by {
          if x in b[1..] {
            var k :| 0 <= k < |b[1..]| && b[1..][k] == x;
            assert Below(b[0], b[k + 1]);
            BelowIrreflexive(x);
          }
        }
        assert Elems(a[1..]) == Elems(a) - {x};
        assert Elems(b[1..]) == Elems(b) - {x};
        SortedUnique(a[1..], b[1..]);
      }
    }
  }

  // --------------------------------------------------------------- joining

  /** `"\n".join(lines)`. */
  function JoinLines(lines: seq<string>): string {
    if |lines| == 0 then ""
    else if |lines| == 1 then lines[0]
    else lines[0] + "\n" + JoinLines(lines[1..])
  }

  /** Joining two non-empty blocks of lines is joining each and putting one
      newline between them. */
  lemma {:induction false} JoinAppend(a: seq<string>, b: seq<string>)
    requires |a| > 0 && |b| > 0
    ensures JoinLines(a + b) == JoinLines(a) + "\n" + JoinLines(b)
    decreases |a|
  {
    if |a| == 1 {
      assert (a + b)[1..] == b;
    } else {
      var ab := a + b;
      assert ab[0] == a[0] && ab[1..] == a[1..] + b;
      JoinAppend(a[1..], b);
      assert JoinLines(ab) == a[0] + "\n" + (JoinLines(a[1..]) + "\n" + JoinLines(b));
    }
  }

  // ------------------------------------------------------ case-insensitive

  /** Lower-casing of one character (ASCII letters). */
  function LowerChar(c: char): char {
    if 'A' <= c <= 'Z' then (c as int - 'A' as int + 'a' as int) as char else c
  }

  function Lower(s: string): (r: string)
    ensures |r| == |s|
    ensures forall i :: 0 <= i < |s| ==> r[i] == LowerChar(s[i])
  {
    seq(|s|, i requires 0 <= i < |s| => LowerChar(s[i]))
  }

  /** `istartswith`: `s` begins with `prefix`, ignoring case. */
  predicate StartsWithIgnoringCase(s: string, prefix: string) {
    Lower(prefix) <= Lower(s)
  }

  /** Extending the query can only narrow the match. */
  lemma StartsWithNarrows(s: string, prefix: string, more: string)
    requires StartsWithIgnoringCase(s, prefix + more)
    ensures StartsWithIgnoringCase(s, prefix)
  {
    var lp := Lower(prefix);
    var lpm := Lower(prefix + more);
    assert lpm[..|lp|] == lp;
  }
}

=== FILE: usernames.dfy ===
/** The username rule: one or more characters, each a word character or one of
    `.`, `@`, `+`, `-`. The three serializers' `validate_username` match the whole
    value (`^[\w.@+-]+\Z`); the model field's RegexValidator uses `$`, which also
    matches just before a final newline. */
module Usernames {

  /** `\w`: a letter, a digit or the underscore. */
  predicate IsWordChar(c: char) {
    ('a' <= c <= 'z') || ('A' <= c <= 'Z') || ('0' <= c <= '9') || c == '_'
  }

  predicate UsernameChar(c: char) {
    IsWordChar(c) || c == '.' || c == '@' || c == '+' || c == '-'
  }

  /** A full match of `[\w.@+-]+`. */
  predicate UsernameShape(s: string) {
    |s| > 0 && forall i :: 0 <= i < |s| ==> UsernameChar(s[i])
  }

  /** `validate_username` of the three serializers: `re.match` with `^…\Z`, a scan
      that stops at the first character outside the class. */
  method ValidateUsername(s: string) returns (ok: bool)
    ensures ok <==> UsernameShape(s)
  {
    if |s| == 0 {
      return false;
    }
    var i := 0;
    while i < |s|
      invariant 0 <= i <= |s|
      invariant forall j :: 0 <= j < i ==> UsernameChar(s[j])
    {
      if !UsernameChar(s[i]) {
        return false;
      }
      i := i + 1;
    }
    return true;
  }

  /** The RegexValidator of backend/recipes/models.py as written: `re.search` with
      `^[\w.@+-]+$`, where `$` also matches before a trailing newline. */
  predicate ModelUsernameAsWritten(s: string) {
    UsernameShape(s) || (|s| > 1 && s[|s| - 1] == '\n' && UsernameShape(s[..|s| - 1]))
  }

  /** The same validator anchored with `\Z`, as the serializers are. */
  predicate ModelUsername(s: string) {
    UsernameShape(s)
  }

  /** Whatever the serializers accept, the model validator accepts too; the
      model validator as written also lets a name with a trailing newline
      through, which no serializer accepts. A serializer's CharField strips
      surrounding white space before any validator runs, so "bob\n" arrives there
      as "bob"; the gap is reached only by a save that validates the model
      directly (`full_clean()` on a User built in code). */
  lemma ModelAdmitsTrailingNewline(s: string)
    requires s == "bob\n"
    ensures ModelUsernameAsWritten(s)
    ensures !ModelUsername(s)
    ensures forall t :: ModelUsername(t) ==> ModelUsernameAsWritten(t)
  {
    assert s[..|s| - 1] == "bob";
    assert !UsernameChar(s[3]);
  }

  /** Every accepted name is made of class characters only: no white space, no
      newline, no slash. */
  lemma AcceptedHasNoNewline(s: string, i: int)
    requires ModelUsername(s) && 0 <= i < |s|
    ensures s[i] != '\n' && s[i] != ' ' && s[i] != '/'
  {
    assert UsernameChar(s[i]);
  }
}

=== FILE: validation.dfy ===
/** Validation of a recipe write (create or edit) in the three serializer versions.

    A write passes two stages, as in Django REST framework: first the field-level
    checks, whose errors are collected into one map keyed by field; then, only if
    that map is empty, the serializer's object-level `validate`. The field-level
    stage holds the required-key check of a full write, the checks of the
    character fields built from the model (a name of 1 to 256 characters once
    stripped, a sent description that is not blank once stripped),
    `cooking_time >= 1` (the model's MinValueValidator(1), and
    `validate_cooking_time` where the serializer has one), and in
    backend/api/serializers.py `validate_ingredients` and `validate_tags`. The object-level stage holds the author check, and in the two
    backend/recipes serializers the checks on the raw request body.

    The versions differ in how an ingredient amount becomes a number: a digit
    string is converted (backend/api), anything `int()` accepts is converted
    (backend/recipes/api), or only an integer is accepted (backend/recipes). */
module Validation {
  import opened Common
  import opened Text

  /** The JSON value submitted as an ingredient amount. `FloatVal` is a JSON number
      with a fraction or an exponent, which Python reads as a float. `Compound`
      stands for a list or an object. */
  datatype Amount = IntVal(n: int) | BoolVal(b: bool) | FloatVal(x: real) | StrVal(s: string) | NoneVal | Compound

  /** One submitted ingredient item: its `id` (absent or present) and `amount`. */
  datatype RawItem = RawItem(id: Option<int>, amount: Amount)

  /** The submitted body; a key that was not sent is `None`. `isFavorited` and
      `isInShoppingCart` are only read by backend/recipes/api/serializers.py, which
      declares them as writable boolean fields. */
  datatype Payload = Payload(
    name: Option<string>,
    ingredients: Option<seq<RawItem>>,
    tags: Option<seq<int>>,
    text: Option<string>,
    cookingTime: Option<int>,
    isFavorited: Option<bool>,
    isInShoppingCart: Option<bool>)

  /** A write: who sends it, the author of the edited recipe (`None` on create),
      whether it is a partial update (PATCH), and the body. */
  datatype Request = Request(editor: Viewer, author: Option<UserId>, partial: bool, body: Payload)

  datatype Field =
    | NameField | IngredientsField | TagsField | TextField | CookingTimeField
    | IsFavoritedField | IsInShoppingCartField

  datatype Reason =
    | Required               // a key missing from a full write
    | Blank                  // "this field may not be blank"
    | TooLong                // "ensure this field has no more than 256 characters"
    | NoIngredients          // "add at least one ingredient"
    | UnknownIngredient      // "ingredient not found"
    | AmountNotNumber        // "the amount must be a number"
    | AmountBelowOne         // "the amount must be at least 1"
    | DuplicateIngredients   // "ingredients must be unique"
    | NoTags                 // "give at least one tag"
    | DuplicateTags          // "tags must be unique"
    | NoText                 // "give a description"
    | CookingTimeBelowOne    // "cooking time must be at least 1 minute"

  datatype Verdict = Accepted | Rejected(errors: map<Field, Reason>) | PermissionDenied

  /** Editing a recipe one did not write. */
  predicate NotAuthor(req: Request) {
    req.author.Some? && req.editor != Member(req.author.value)
  }

  // ---------------------------------------------------------------- amounts

  /** `isinstance(amount, int)`; a JSON boolean is a Python bool, which is an int. */
  function IsInt(a: Amount): (r: Option<int>)
    ensures r.Some? <==> a.IntVal? || a.BoolVal?
  {
    match a
    case IntVal(n) => Some(n)
    case BoolVal(b) => Some(if b then 1 else 0)
    case _ => None
  }

  /** `int(x)` of a float: the fraction is cut off toward zero. */
  function Truncate(x: real): (n: int)
    ensures n as real <= x < n as real + 1.0 || n as real - 1.0 < x <= n as real
    ensures x >= 0.0 ==> n >= 0
  {
    if x >= 0.0 then x.Floor else -((-x).Floor)
  }

  /** `int(amount)`, with `None` where it raises ValueError or TypeError. */
  function PyInt(a: Amount): (r: Option<int>)
    ensures IsInt(a).Some? ==> r == IsInt(a)
    ensures a.NoneVal? || a.Compound? ==> r.None?
    ensures a.FloatVal? ==> r == Some(Truncate(a.x))
  {
    match a
    case StrVal(s) => PyIntOfString(s)
    case FloatVal(x) => Some(Truncate(x))
    case _ => IsInt(a)
  }

  /** backend/api: a digit string is converted with `int()`, then the value must be
      an int. Every amount this accepts, `int()` accepts with the same value, and
      it accepts every int. */
  function ApiCoerce(a: Amount): (r: Option<int>)
    ensures IsInt(a).Some? ==> r == IsInt(a)
    ensures r.Some? ==> PyInt(a) == r
    ensures a.StrVal? ==> (r.Some? <==> IsDigits(a.s))
  {
    match a
    case StrVal(s) => if IsDigits(s) then Some(DigitsValue(s)) else None
    case _ => IsInt(a)
  }

  predicate AtLeastOne(v: Option<int>) {
    v.Some? && v.value >= 1
  }

  function Ids(items: seq<RawItem>): (r: seq<Option<int>>)
    ensures |r| == |items|
    ensures forall k :: 0 <= k < |items| ==> r[k] == items[k].id
  {
    seq(|items|, k requires 0 <= k < |items| => items[k].id)
  }

  lemma IdsCons(items: seq<RawItem>)
    requires |items| > 0
    ensures Ids(items) == [items[0].id] + Ids(items[1..])
  {
  }

  // ------------------------------------------------ shared field-level checks

  /** `validate_tags` of backend/api, and the tag checks of the two backend/recipes
      serializers: at least one tag, and no tag twice (`len(tags) != len(set(tags))`). */
  function ValidateTags(tags: seq<int>): (r: Option<Reason>)
    ensures r.None? <==> |tags| > 0 && Distinct(tags)
    ensures |tags| == 0 ==> r == Some(NoTags)
    ensures r.Some? ==> r.value == NoTags || r.value == DuplicateTags
  {
    DistinctIffNoShrink(tags);
    if |tags| == 0 then Some(NoTags)
    else if |tags| != |Elems(tags)| then Some(DuplicateTags)
    else None
  }

  /** A field-error map that names no field is empty. */
  lemma NoFieldErrors(m: map<Field, Reason>)
    requires NameField !in m && IngredientsField !in m && TagsField !in m && TextField !in m && CookingTimeField !in m
    requires IsFavoritedField !in m && IsInShoppingCartField !in m
    ensures m == map[]
  {
    forall f | f in m
      ensures false
    {
      match f
      case NameField =>
      case IngredientsField =>
      case TagsField =>
      case TextField =>
      case CookingTimeField =>
      case IsFavoritedField =>
      case IsInShoppingCartField =>
    }
  }

  /** The `name` field the three serializers build from `Recipe.name`, a
      CharField of at most 256 characters with no default: the value is stripped,
      and must then be non-empty and at most 256 characters long. */
  function NameError(name: string): (r: Option<Reason>)
    ensures r.None? <==> 0 < |Strip(name)| <= 256
    ensures r == Some(Blank) <==> Strip(name) == ""
    ensures r.Some? ==> r.value == Blank || r.value == TooLong
  {
    var t := Strip(name);
    if t == "" then Some(Blank)
    else if |t| > 256 then Some(TooLong)
    else None
  }

  /** What every version demands of the name: sent on a full write, and passing
      the field's checks when sent. */
  predicate NameAcceptable(req: Request) {
    && (req.partial || req.body.name.Some?)
    && (req.body.name.Some? ==> NameError(req.body.name.value).None?)
  }

  /** A sent description that is blank once stripped. `Recipe.text` is a
      TextField with a default and without `blank=True`, so the serializers build
      a character field that is not required and does not allow blank values. */
  predicate SentTextBlank(req: Request) {
    req.body.text.Some? && Strip(req.body.text.value) == ""
  }

  /** The field-level stage the three versions share: on a full write the name,
      ingredients, tags and cooking time must be sent, a sent name must pass its
      checks, a sent description must not be blank, and a sent cooking time must
      be at least 1. The description has a model default, so it is never
      required. */
  function CommonFieldErrors(req: Request): (m: map<Field, Reason>)
    ensures NameField in m <==>
              (req.body.name.None? && !req.partial) || (req.body.name.Some? && NameError(req.body.name.value).Some?)
    ensures NameField in m ==> m[NameField] == if req.body.name.Some? then NameError(req.body.name.value).value else Required
    ensures IngredientsField in m <==> req.body.ingredients.None? && !req.partial
    ensures IngredientsField in m ==> m[IngredientsField] == Required
    ensures TagsField in m <==> req.body.tags.None? && !req.partial
    ensures TagsField in m ==> m[TagsField] == Required
    ensures CookingTimeField in m <==>
              (req.body.cookingTime.None? && !req.partial) || (req.body.cookingTime.Some? && req.body.cookingTime.value < 1)
    ensures CookingTimeField in m ==> m[CookingTimeField] == if req.body.cookingTime.Some? then CookingTimeBelowOne else Required
    ensures TextField in m <==> SentTextBlank(req)
    ensures TextField in m ==> m[TextField] == Blank
    ensures IsFavoritedField !in m && IsInShoppingCartField !in m
  {
    map f | f in AllFields && CommonFieldError(req, f).Some? :: CommonFieldError(req, f).value
  }

  const AllFields: set<Field> :=
    {NameField, IngredientsField, TagsField, TextField, CookingTimeField, IsFavoritedField, IsInShoppingCartField}

  /** The shared field-level error of one field, if any. */
  function CommonFieldError(req: Request, f: Field): Option<Reason> {
    var b := req.body;
    match f
    case NameField =>
      if b.name.Some? then NameError(b.name.value) else if req.partial then None else Some(Required)
    case IngredientsField => if b.ingredients.None? && !req.partial then Some(Required) else None
    case TagsField => if b.tags.None? && !req.partial then Some(Required) else None
    case TextField => if SentTextBlank(req) then Some(Blank) else None
    case CookingTimeField =>
      if b.cookingTime.Some? then (if b.cookingTime.value < 1 then Some(CookingTimeBelowOne) else None)
      else if req.partial then None else Some(Required)
    case IsFavoritedField => None
    case IsInShoppingCartField => None
  }

  /** What the shared field-level stage demands of a write. */
  predicate CommonFieldsPass(req: Request) {
    var b := req.body;
    && NameAcceptable(req)
    && !SentTextBlank(req)
    && (req.partial || (b.ingredients.Some? && b.tags.Some? && b.cookingTime.Some?))
    && (b.cookingTime.Some? ==> b.cookingTime.value >= 1)
  }

  lemma CommonFieldErrorsEmpty(req: Request)
    ensures CommonFieldErrors(req) == map[] <==> CommonFieldsPass(req)
  {
    var m := CommonFieldErrors(req);
    if CommonFieldsPass(req) {
      assert NameField !in m && IngredientsField !in m && TagsField !in m && CookingTimeField !in m;
      assert TextField !in m;
      NoFieldErrors(m);
    }
    if m == map[] {
      assert NameField !in m && IngredientsField !in m && TagsField !in m && CookingTimeField !in m;
      assert TextField !in m;
    }
  }

  // ------------------------------------------------ backend/api/serializers.py

  /** The checks `validate_ingredients` makes on one item, in order: the
      ingredient must be there, the amount must be (or become) an int, and at
      least 1. */
  function ApiItemError(it: RawItem): (r: Option<Reason>)
    ensures r.None? <==> it.id.Some? && AtLeastOne(ApiCoerce(it.amount))
    ensures r.Some? ==> r.value in {UnknownIngredient, AmountNotNumber, AmountBelowOne}
  {
    if it.id.None? then Some(UnknownIngredient)
    else match ApiCoerce(it.amount)
      case None => Some(AmountNotNumber)
      case Some(n) => if n < 1 then Some(AmountBelowOne) else None
  }

  /** The first item error the loop raises. */
  function ApiFirstItemError(items: seq<RawItem>): (r: Option<Reason>)
    ensures r.None? <==> forall k :: 0 <= k < |items| ==> ApiItemError(items[k]).None?
    ensures r.Some? ==> exists k :: 0 <= k < |items| && ApiItemError(items[k]) == r
                                    && forall j :: 0 <= j < k ==> ApiItemError(items[j]).None?
  {
    if |items| == 0 then None
    else match ApiItemError(items[0])
      case Some(e) => Some(e)
      case None =>
        var rest := ApiFirstItemError(items[1..]);
        assert forall k :: 1 <= k < |items| ==> items[k] == items[1..][k - 1];
        rest
  }

  /** `validate_ingredients`: a non-empty list, every item passing its checks,
      and then no ingredient id twice. */
  function ValidateIngredientsApi(items: seq<RawItem>): (r: Option<Reason>)
    ensures r.None? <==>
              |items| > 0 && Distinct(Ids(items))
              && forall k :: 0 <= k < |items| ==> ApiItemError(items[k]).None?
    ensures |items| == 0 ==> r == Some(NoIngredients)
    ensures r == Some(DuplicateIngredients) ==> forall k :: 0 <= k < |items| ==> ApiItemError(items[k]).None?
  {
    if |items| == 0 then Some(NoIngredients)
    else match ApiFirstItemError(items)
      case Some(e) => Some(e)
      case None =>
        var ids := Ids(items);
        DistinctIffNoShrink(ids);
        if |ids| != |Elems(ids)| then Some(DuplicateIngredients) else None
  }

  /** The field-level stage of backend/api/serializers.py. */
  function ApiFieldErrors(req: Request): (m: map<Field, Reason>)
    ensures IngredientsField in m <==>
              (req.body.ingredients.None? && !req.partial)
              || (req.body.ingredients.Some? && ValidateIngredientsApi(req.body.ingredients.value).Some?)
    ensures TagsField in m <==>
              (req.body.tags.None? && !req.partial)
              || (req.body.tags.Some? && ValidateTags(req.body.tags.value).Some?)
    ensures CookingTimeField in m <==> CookingTimeField in CommonFieldErrors(req)
    ensures NameField in m <==> NameField in CommonFieldErrors(req)
    ensures TextField in m <==> SentTextBlank(req)
    ensures IsFavoritedField !in m && IsInShoppingCartField !in m
  {
    var m := CommonFieldErrors(req);
    var m1 := match req.body.ingredients
      case Some(items) =>
        (match ValidateIngredientsApi(items) case Some(e) => m[IngredientsField := e] case None => m)
      case None => m;
    match req.body.tags
    case Some(tags) =>
      (match ValidateTags(tags) case Some(e) => m1[TagsField := e] case None => m1)
    case None => m1
  }

  /** `RecipeSerializer` of backend/api/serializers.py: field errors first; then
      `validate`, which only refuses an editor who is not the author. */
  function ApiValidate(req: Request): (v: Verdict)
    ensures ApiFieldErrors(req) != map[] ==> v == Rejected(ApiFieldErrors(req))
    ensures ApiFieldErrors(req) == map[] && NotAuthor(req) ==> v == PermissionDenied
    ensures v.Rejected? ==> |v.errors| > 0 && (TextField in v.errors <==> SentTextBlank(req))
    ensures v == PermissionDenied ==> NotAuthor(req)
    ensures NotAuthor(req) ==> v != Accepted
  {
    var errs := ApiFieldErrors(req);
    if errs != map[] then Rejected(errs)
    else if NotAuthor(req) then PermissionDenied
    else Accepted
  }

  /** Everything backend/api/serializers.py demands of a write, in one place. */
  predicate ApiAcceptable(req: Request) {
    var b := req.body;
    && !NotAuthor(req)
    && CommonFieldsPass(req)
    && (b.ingredients.Some? ==>
          && |b.ingredients.value| > 0
          && Distinct(Ids(b.ingredients.value))
          && forall k :: 0 <= k < |b.ingredients.value| ==>
               b.ingredients.value[k].id.Some? && AtLeastOne(ApiCoerce(b.ingredients.value[k].amount)))
    && (b.tags.Some? ==> |b.tags.value| > 0 && Distinct(b.tags.value))
  }

  lemma ApiAcceptedIff(req: Request)
    ensures ApiValidate(req) == Accepted <==> ApiAcceptable(req)
  {
    var errs := ApiFieldErrors(req);
    var common := CommonFieldErrors(req);
    CommonFieldErrorsEmpty(req);
    if ApiAcceptable(req) {
      assert NameField !in errs && IngredientsField !in errs && TagsField !in errs && CookingTimeField !in errs;
      NoFieldErrors(errs);
    }
    if ApiValidate(req) == Accepted {
      assert errs == map[];
      assert IngredientsField !in common && TagsField !in common;
      NoFieldErrors(common);
    }
  }

  // -------------------------------------------- backend/recipes/api/serializers.py

  /** `not text or str(text).strip() == ""`. */
  predicate TextBlank(text: Option<string>) {
    text.None? || text.value == "" || Strip(text.value) == ""
  }

  /** A description is blank exactly when it is missing or every character is white space. */
  lemma TextBlankMeans(text: Option<string>)
    ensures TextBlank(text) <==> text.None? || forall i :: 0 <= i < |text.value| ==> IsSpace(text.value[i])
  {
    if text.Some? {
      StripEmptyIffAllSpace(text.value);
    }
  }

  /** A description made of an information separator only is blank, since
      `str.strip()` removes it. */
  lemma SeparatorTextIsBlank(text: Option<string>)
    requires text == Some("\U{1C}\U{1F}")
    ensures TextBlank(text)
  {
    TextBlankMeans(text);
  }

  /** The loop of `validate` in backend/recipes/api/serializers.py over the raw
      items: a repeated id, then an amount that `int()` refuses or that is below 1,
      then, still inside the loop, the description. */
  function RecipesApiLoop(items: seq<RawItem>, seen: set<Option<int>>, text: Option<string>): (r: Option<(Field, Reason)>)
    ensures r.Some? ==> r.value in {(IngredientsField, DuplicateIngredients), (IngredientsField, AmountBelowOne), (TextField, NoText)}
    ensures r == Some((TextField, NoText)) ==> TextBlank(text)
  {
    if |items| == 0 then None
    else
      var it := items[0];
      if it.id in seen then Some((IngredientsField, DuplicateIngredients))
      else if !AtLeastOne(PyInt(it.amount)) then Some((IngredientsField, AmountBelowOne))
      else if TextBlank(text) then Some((TextField, NoText))
      else RecipesApiLoop(items[1..], seen + {it.id}, text)
  }

  /** No item carries an id from `seen`. */
  predicate Unseen(items: seq<RawItem>, seen: set<Option<int>>) {
    forall k :: 0 <= k < |items| ==> items[k].id !in seen
  }

  lemma UnseenCons(items: seq<RawItem>, seen: set<Option<int>>)
    requires |items| > 0
    ensures Unseen(items, seen) <==> items[0].id !in seen && Unseen(items[1..], seen)
  {
    assert forall k :: 1 <= k < |items| ==> items[k] == items[1..][k - 1];
  }

  lemma UnseenAdd(items: seq<RawItem>, seen: set<Option<int>>, x: Option<int>)
    ensures Unseen(items, seen + {x}) <==> Unseen(items, seen) && x !in Ids(items)
  {
    if Unseen(items, seen) && x !in Ids(items) {
      forall k | 0 <= k < |items|
        ensures items[k].id !in seen + {x}
      {
        assert Ids(items)[k] == items[k].id;
      }
    }
  }

  /** Every amount passes `int()` and is at least 1. */
  predicate AllPyIntAmounts(items: seq<RawItem>) {
    forall k :: 0 <= k < |items| ==> AtLeastOne(PyInt(items[k].amount))
  }

  /** Every amount is an int and at least 1. */
  predicate AllIntAmounts(items: seq<RawItem>) {
    forall k :: 0 <= k < |items| ==> AtLeastOne(IsInt(items[k].amount))
  }

  lemma AmountsCons(items: seq<RawItem>)
    requires |items| > 0
    ensures AllPyIntAmounts(items) <==> AtLeastOne(PyInt(items[0].amount)) && AllPyIntAmounts(items[1..])
    ensures AllIntAmounts(items) <==> AtLeastOne(IsInt(items[0].amount)) && AllIntAmounts(items[1..])
  {
    assert forall k :: 1 <= k < |items| ==> items[k] == items[1..][k - 1];
  }

  /** The per-item facts a loop step needs, gathered once. */
  lemma LoopStep(items: seq<RawItem>, seen: set<Option<int>>)
    requires |items| > 0
    ensures Unseen(items, seen) && Distinct(Ids(items)) <==>
              items[0].id !in seen && Unseen(items[1..], seen + {items[0].id}) && Distinct(Ids(items[1..]))
  {
    UnseenCons(items, seen);
    UnseenAdd(items[1..], seen, items[0].id);
    IdsCons(items);
    DistinctCons(items[0].id, Ids(items[1..]));
  }

  lemma {:induction false} RecipesApiLoopPasses(items: seq<RawItem>, seen: set<Option<int>>, text: Option<string>)
    ensures RecipesApiLoop(items, seen, text).None? <==>
              && Unseen(items, seen)
              && Distinct(Ids(items))
              && AllPyIntAmounts(items)
              && (|items| > 0 ==> !TextBlank(text))
  {
    if |items| > 0 {
      RecipesApiLoopPasses(items[1..], seen + {items[0].id}, text);
      LoopStep(items, seen);
      AmountsCons(items);
    }
  }

  /** `validate` of backend/recipes/api/serializers.py, on the raw body. After the
      author check: no ingredients, then no tags, then a repeated tag; then the loop,
      which checks the description as soon as the first item has passed. */
  function RecipesApiObject(req: Request): (v: Verdict)
    ensures NotAuthor(req) ==> v == PermissionDenied
    ensures v.Rejected? ==> |v.errors| == 1
    ensures !NotAuthor(req) && |req.body.ingredients.GetOr([])| == 0 ==>
              v == Rejected(map[IngredientsField := NoIngredients])
    ensures !NotAuthor(req) && |req.body.ingredients.GetOr([])| > 0 && ValidateTags(req.body.tags.GetOr([])).Some? ==>
              v == Rejected(map[TagsField := ValidateTags(req.body.tags.GetOr([])).value])
    ensures !NotAuthor(req) && |req.body.ingredients.GetOr([])| > 0 && ValidateTags(req.body.tags.GetOr([])).None? ==>
              && (v == Accepted <==> Distinct(Ids(req.body.ingredients.value)) && AllPyIntAmounts(req.body.ingredients.value)
                                     && !TextBlank(req.body.text))
              && (!AtLeastOne(PyInt(req.body.ingredients.value[0].amount)) ==> v == Rejected(map[IngredientsField := AmountBelowOne]))
              && (AtLeastOne(PyInt(req.body.ingredients.value[0].amount)) && TextBlank(req.body.text) ==>
                    v == Rejected(map[TextField := NoText]))
              && (v.Rejected? && !TextBlank(req.body.text) ==> v.errors.Keys == {IngredientsField})
  {
    if NotAuthor(req) then PermissionDenied
    else
      var items := req.body.ingredients.GetOr([]);
      if |items| == 0 then Rejected(map[IngredientsField := NoIngredients])
      else match ValidateTags(req.body.tags.GetOr([]))
        case Some(e) => Rejected(map[TagsField := e])
        case None =>
          RecipesApiLoopPasses(items, {}, req.body.text);
          RecipesApiLoopFirst(items, req.body.text);
          match RecipesApiLoop(items, {}, req.body.text)
          case Some(fe) => Rejected(map[fe.0 := fe.1])
          case None => Accepted
  }

  /** What the loop of backend/recipes/api/serializers.py does with its first
      item: an amount `int()` refuses ends it with an ingredients error; one that
      passes is followed by the description check. Without a blank description,
      every error it reports is an ingredients error. */
  lemma RecipesApiLoopFirst(items: seq<RawItem>, text: Option<string>)
    requires |items| > 0
    ensures !AtLeastOne(PyInt(items[0].amount)) ==> RecipesApiLoop(items, {}, text) == Some((IngredientsField, AmountBelowOne))
    ensures AtLeastOne(PyInt(items[0].amount)) && TextBlank(text) ==> RecipesApiLoop(items, {}, text) == Some((TextField, NoText))
    ensures !TextBlank(text) && RecipesApiLoop(items, {}, text).Some? ==> RecipesApiLoop(items, {}, text).value.0 == IngredientsField
  {
  }

  /** The field-level stage of backend/recipes/api/serializers.py: the shared
      checks, and `is_favorited` and `is_in_shopping_cart`, which this serializer
      declares as writable boolean fields and so requires on a full write. */
  function RecipesApiFieldErrors(req: Request): (m: map<Field, Reason>)
    ensures IsFavoritedField in m <==> req.body.isFavorited.None? && !req.partial
    ensures IsInShoppingCartField in m <==> req.body.isInShoppingCart.None? && !req.partial
    ensures IsFavoritedField in m ==> m[IsFavoritedField] == Required
    ensures IsInShoppingCartField in m ==> m[IsInShoppingCartField] == Required
    ensures forall f :: f != IsFavoritedField && f != IsInShoppingCartField ==>
              (f in m <==> f in CommonFieldErrors(req)) && (f in m ==> m[f] == CommonFieldErrors(req)[f])
  {
    var m := CommonFieldErrors(req);
    var m1 := if req.body.isFavorited.None? && !req.partial then m[IsFavoritedField := Required] else m;
    if req.body.isInShoppingCart.None? && !req.partial then m1[IsInShoppingCartField := Required] else m1
  }

  /** `RecipeSerializer` of backend/recipes/api/serializers.py. The author check is
      the first thing `validate` does: once the field checks pass, an editor who is
      not the author is refused whatever else the body holds. */
  function RecipesApiValidate(req: Request): (v: Verdict)
    ensures RecipesApiFieldErrors(req) != map[] ==> v == Rejected(RecipesApiFieldErrors(req))
    ensures RecipesApiFieldErrors(req) == map[] && NotAuthor(req) ==> v == PermissionDenied
    ensures SentTextBlank(req) ==> v.Rejected? && TextField in v.errors && v.errors[TextField] == Blank
    ensures v.Rejected? ==> |v.errors| > 0
  {
    var errs := RecipesApiFieldErrors(req);
    if errs != map[] then Rejected(errs) else RecipesApiObject(req)
  }

  predicate RecipesApiAcceptable(req: Request) {
    var b := req.body;
    && !NotAuthor(req)
    && NameAcceptable(req)
    && b.cookingTime.GetOr(if req.partial then 1 else 0) >= 1
    && b.ingredients.Some? && |b.ingredients.value| > 0
    && Distinct(Ids(b.ingredients.value))
    && AllPyIntAmounts(b.ingredients.value)
    && b.tags.Some? && |b.tags.value| > 0 && Distinct(b.tags.value)
    && !TextBlank(b.text)
    && (req.partial || (b.isFavorited.Some? && b.isInShoppingCart.Some?))
  }

  lemma RecipesApiAcceptedIff(req: Request)
    ensures RecipesApiValidate(req) == Accepted <==> RecipesApiAcceptable(req)
  {
    var b := req.body;
    RecipesApiLoopPasses(b.ingredients.GetOr([]), {}, b.text);
    CommonFieldErrorsEmpty(req);
    RecipesApiFieldErrorsEmpty(req);
  }

  lemma RecipesApiFieldErrorsEmpty(req: Request)
    ensures RecipesApiFieldErrors(req) == map[] <==>
              CommonFieldErrors(req) == map[] && (req.partial || (req.body.isFavorited.Some? && req.body.isInShoppingCart.Some?))
  {
    var errs := RecipesApiFieldErrors(req);
    var common := CommonFieldErrors(req);
    if errs == map[] {
      forall f | f in common
        ensures false
      {
      }
    }
    if common == map[] && (req.partial || (req.body.isFavorited.Some? && req.body.isInShoppingCart.Some?)) {
      forall f | f in errs
        ensures false
      {
      }
    }
  }

  /** Every full write backend/recipes/api accepts carries `is_favorited` and
      `is_in_shopping_cart` into the validated data. */
  lemma RecipesApiFullWriteCarriesMarks(req: Request)
    requires RecipesApiValidate(req) == Accepted && !req.partial
    ensures req.body.isFavorited.Some? && req.body.isInShoppingCart.Some?
  {
    var errs := RecipesApiFieldErrors(req);
    assert errs == map[];
    assert IsFavoritedField !in errs && IsInShoppingCartField !in errs;
  }

  // ---------------------------------------------- backend/recipes/serializers.py

  /** The loop of `validate` in backend/recipes/serializers.py: a repeated id, then
      an amount that is not an int or is below 1. The description waits until
      after the loop. */
  function RecipesLoop(items: seq<RawItem>, seen: set<Option<int>>): (r: Option<Reason>)
    ensures r.Some? ==> r.value == DuplicateIngredients || r.value == AmountBelowOne
  {
    if |items| == 0 then None
    else
      var it := items[0];
      if it.id in seen then Some(DuplicateIngredients)
      else if !AtLeastOne(IsInt(it.amount)) then Some(AmountBelowOne)
      else RecipesLoop(items[1..], seen + {it.id})
  }

  lemma {:induction false} RecipesLoopPasses(items: seq<RawItem>, seen: set<Option<int>>)
    ensures RecipesLoop(items, seen).None? <==>
              Unseen(items, seen) && Distinct(Ids(items)) && AllIntAmounts(items)
  {
    if |items| > 0 {
      RecipesLoopPasses(items[1..], seen + {items[0].id});
      LoopStep(items, seen);
      AmountsCons(items);
    }
  }

  /** `validate` of backend/recipes/serializers.py, on the raw body. After the
      author check: no ingredients, then no tags, then a repeated tag, then the
      loop over the items, and only after the loop the description. */
  function RecipesObject(req: Request): (v: Verdict)
    ensures NotAuthor(req) ==> v == PermissionDenied
    ensures v.Rejected? ==> |v.errors| == 1
    ensures !NotAuthor(req) && |req.body.ingredients.GetOr([])| == 0 ==>
              v == Rejected(map[IngredientsField := NoIngredients])
    ensures !NotAuthor(req) && |req.body.ingredients.GetOr([])| > 0 && ValidateTags(req.body.tags.GetOr([])).Some? ==>
              v == Rejected(map[TagsField := ValidateTags(req.body.tags.GetOr([])).value])
    ensures !NotAuthor(req) && |req.body.ingredients.GetOr([])| > 0 && ValidateTags(req.body.tags.GetOr([])).None? ==>
              && (!(Distinct(Ids(req.body.ingredients.value)) && AllIntAmounts(req.body.ingredients.value)) ==>
                    v.Rejected? && v.errors.Keys == {IngredientsField})
              && (Distinct(Ids(req.body.ingredients.value)) && AllIntAmounts(req.body.ingredients.value) ==>
                    v == (if TextBlank(req.body.text) then Rejected(map[TextField := NoText]) else Accepted))
  {
    if NotAuthor(req) then PermissionDenied
    else
      var items := req.body.ingredients.GetOr([]);
      if |items| == 0 then Rejected(map[IngredientsField := NoIngredients])
      else match ValidateTags(req.body.tags.GetOr([]))
        case Some(e) => Rejected(map[TagsField := e])
        case None =>
          RecipesLoopPasses(items, {});
          match RecipesLoop(items, {})
          case Some(e) => Rejected(map[IngredientsField := e])
          case None =>
            if TextBlank(req.body.text) then Rejected(map[TextField := NoText]) else Accepted
  }

  /** `RecipeSerializer` of backend/recipes/serializers.py. */
  function RecipesValidate(req: Request): (v: Verdict)
    ensures CommonFieldErrors(req) != map[] ==> v == Rejected(CommonFieldErrors(req))
    ensures CommonFieldErrors(req) == map[] && NotAuthor(req) ==> v == PermissionDenied
    ensures SentTextBlank(req) ==> v.Rejected? && TextField in v.errors && v.errors[TextField] == Blank
    ensures v.Rejected? ==> |v.errors| > 0
  {
    var errs := CommonFieldErrors(req);
    if errs != map[] then Rejected(errs) else RecipesObject(req)
  }

  predicate RecipesAcceptable(req: Request) {
    var b := req.body;
    && !NotAuthor(req)
    && NameAcceptable(req)
    && b.cookingTime.GetOr(if req.partial then 1 else 0) >= 1
    && b.ingredients.Some? && |b.ingredients.value| > 0
    && Distinct(Ids(b.ingredients.value))
    && AllIntAmounts(b.ingredients.value)
    && b.tags.Some? && |b.tags.value| > 0 && Distinct(b.tags.value)
    && !TextBlank(b.text)
  }

  lemma RecipesAcceptedIff(req: Request)
    ensures RecipesValidate(req) == Accepted <==> RecipesAcceptable(req)
  {
    var b := req.body;
    RecipesLoopPasses(b.ingredients.GetOr([]), {});
    CommonFieldErrorsEmpty(req);
  }

  // ---------------------------------------------------- between the versions

  /** A full write without a name is refused by all three versions with a
      `Required` error on the name, before `validate` runs and whoever sends it. */
  lemma NameRequiredEverywhere(req: Request)
    requires !req.partial && req.body.name.None?
    ensures ApiValidate(req).Rejected? && NameField in ApiValidate(req).errors
    ensures ApiValidate(req).errors[NameField] == Required
    ensures RecipesApiValidate(req).Rejected? && RecipesApiValidate(req).errors[NameField] == Required
    ensures RecipesValidate(req).Rejected? && RecipesValidate(req).errors[NameField] == Required
  {
    assert NameField in CommonFieldErrors(req);
  }

  /** A sent description that is blank once stripped is refused by all three
      versions with a `Blank` error on the description, before `validate` runs
      and whoever sends it: a non-author gets this error and not a refusal of
      permission. */
  lemma BlankTextRefusedEverywhere(req: Request)
    requires req.body.text.Some? && Strip(req.body.text.value) == ""
    ensures ApiValidate(req).Rejected? && ApiValidate(req).errors[TextField] == Blank
    ensures RecipesApiValidate(req).Rejected? && RecipesApiValidate(req).errors[TextField] == Blank
    ensures RecipesValidate(req).Rejected? && RecipesValidate(req).errors[TextField] == Blank
  {
    assert TextField in CommonFieldErrors(req);
  }

  /** The description check inside `validate` of the two backend/recipes
      versions is only reached by a write that leaves the description out: a sent
      blank one has already been refused at the field level. */
  lemma NoTextOnlyWhenAbsent(req: Request)
    ensures RecipesApiValidate(req) == Rejected(map[TextField := NoText]) ==> req.body.text.None?
    ensures RecipesValidate(req) == Rejected(map[TextField := NoText]) ==> req.body.text.None?
  {
    if req.body.text.Some? {
      if SentTextBlank(req) {
        assert RecipesApiValidate(req).errors[TextField] == Blank;
        assert RecipesValidate(req).errors[TextField] == Blank;
      } else {
        assert !TextBlank(req.body.text);
        NoTextFromObject(req);
      }
    }
  }

  /** With a description that is not blank, `validate` of neither
      backend/recipes version reports the description. */
  lemma NoTextFromObject(req: Request)
    requires !TextBlank(req.body.text)
    ensures RecipesApiObject(req) != Rejected(map[TextField := NoText])
    ensures RecipesObject(req) != Rejected(map[TextField := NoText])
  {
  }

  /** Both backend/recipes versions read the ingredients and tags from the raw
      body, so they refuse a partial update that leaves either out. */
  lemma RecipesVersionsNeedIngredientsAndTags(req: Request)
    ensures RecipesApiValidate(req) == Accepted || RecipesValidate(req) == Accepted ==>
              && req.body.ingredients.Some? && |req.body.ingredients.value| > 0
              && req.body.tags.Some? && |req.body.tags.value| > 0
  {
    RecipesApiAcceptedIff(req);
    RecipesAcceptedIff(req);
  }

  /** The strict version's `validate` accepts nothing the `int()` version's
      refuses. Over the whole write this holds once the two booleans that only
      backend/recipes/api requires are sent, or the write is partial. */
  lemma StrictAcceptsLess(req: Request)
    ensures RecipesObject(req) == Accepted ==> RecipesApiObject(req) == Accepted
    ensures RecipesValidate(req) == Accepted && (req.partial || (req.body.isFavorited.Some? && req.body.isInShoppingCart.Some?))
            ==> RecipesApiValidate(req) == Accepted
  {
    RecipesApiAcceptedIff(req);
    RecipesAcceptedIff(req);
  }

  /** A full write without the two booleans: backend/recipes may accept it, and
      backend/recipes/api refuses it at the field level. */
  lemma MarksOnlyRequiredByRecipesApi(req: Request)
    requires !req.partial && req.body.isFavorited.None?
    ensures RecipesApiValidate(req).Rejected? && IsFavoritedField in RecipesApiValidate(req).errors
  {
  }

  /** The two backend/recipes versions check the description at different
      points. With a good first item, a zero amount after it and a blank
      description, backend/recipes/api reports the description from inside its
      loop, and backend/recipes reports the amount, since it checks the
      description only after the loop. Over the whole write this order shows
      when the description is left out (`NoTextOnlyWhenAbsent`). */
  lemma BlankTextOrder(req: Request)
    requires !NotAuthor(req)
    requires req.body.ingredients == Some([RawItem(Some(1), IntVal(2)), RawItem(Some(2), IntVal(0))])
    requires req.body.tags == Some([1])
    requires TextBlank(req.body.text)
    ensures RecipesApiObject(req) == Rejected(map[TextField := NoText])
    ensures RecipesObject(req) == Rejected(map[IngredientsField := AmountBelowOne])
  {
    var items := req.body.ingredients.value;
    assert items[1..] == [RawItem(Some(2), IntVal(0))];
    assert RecipesLoop(items[1..], {Some(1)}) == Some(AmountBelowOne);
  }

  /** A float amount: `int(2.5)` is 2, so backend/recipes/api accepts it, while
      `isinstance(2.5, int)` is false and backend/api and backend/recipes refuse
      it. */
  lemma FloatAmount(a: Amount)
    requires a == FloatVal(2.5)
    ensures PyInt(a) == Some(2) && AtLeastOne(PyInt(a))
    ensures IsInt(a).None? && ApiCoerce(a).None?
  {
  }

  /** A full write whose only amount is the string "5". */
  predicate DigitStringWrite(req: Request) {
    && req.author.None? && !req.partial
    && req.body.name == Some("Soup")
    && req.body.ingredients == Some([RawItem(Some(1), StrVal("5"))])
    && req.body.tags == Some([2])
    && req.body.text == Some("Boil.")
    && req.body.cookingTime == Some(10)
    && req.body.isFavorited == Some(false) && req.body.isInShoppingCart == Some(false)
  }

  lemma DigitStringAmount(a: Amount)
    requires a == StrVal("5")
    ensures ApiCoerce(a) == Some(5) && PyInt(a) == Some(5) && IsInt(a) == None
  {
    assert IsDigits("5");
    assert DigitsValue("5") == 5;
  }

  /** "Boil." is not blank. */
  lemma DigitStringText(req: Request)
    requires DigitStringWrite(req)
    ensures !TextBlank(req.body.text)
  {
    var s := req.body.text.value;
    assert s[0] == 'B';
    StripNonBlank(s);
  }

  /** "Soup" is a good name. */
  lemma DigitStringName(req: Request)
    requires DigitStringWrite(req)
    ensures NameError(req.body.name.value).None?
  {
    var s := req.body.name.value;
    assert s[0] == 'S';
    StripNonBlank(s);
    assert |Strip(s)| <= |s| == 4;
  }

  lemma DigitStringFields(req: Request)
    requires DigitStringWrite(req)
    ensures CommonFieldErrors(req) == map[]
    ensures RecipesApiFieldErrors(req) == map[]
  {
    DigitStringCommon(req);
    CommonFieldErrorsEmpty(req);
    RecipesApiFieldErrorsEmpty(req);
  }

  /** The digit-string write passes the shared field-level checks. */
  lemma DigitStringCommon(req: Request)
    requires DigitStringWrite(req)
    ensures CommonFieldsPass(req)
  {
    DigitStringName(req);
    DigitStringText(req);
  }

  lemma DigitStringBody(req: Request)
    requires DigitStringWrite(req)
    ensures Distinct(Ids(req.body.ingredients.value)) && Distinct(req.body.tags.value)
    ensures !TextBlank(req.body.text)
    ensures CommonFieldErrors(req) == map[] && RecipesApiFieldErrors(req) == map[]
  {
    DigitStringText(req);
    DigitStringFields(req);
  }

  /** The digit-string write meets every requirement of backend/api. */
  lemma DigitStringApiAcceptable(req: Request)
    requires DigitStringWrite(req)
    ensures ApiAcceptable(req)
  {
    DigitStringCommon(req);
    DigitStringApiItems(req.body.ingredients.value);
    assert Distinct(req.body.tags.value);
  }

  /** The one item of the digit-string write passes backend/api's item checks. */
  lemma DigitStringApiItems(items: seq<RawItem>)
    requires items == [RawItem(Some(1), StrVal("5"))]
    ensures |items| > 0 && Distinct(Ids(items))
    ensures forall k :: 0 <= k < |items| ==> items[k].id.Some? && AtLeastOne(ApiCoerce(items[k].amount))
  {
    DigitStringAmount(items[0].amount);
    assert |Ids(items)| == 1;
  }

  /** backend/api accepts a digit-string amount. */
  lemma DigitStringApi(req: Request)
    requires DigitStringWrite(req)
    ensures ApiValidate(req) == Accepted
  {
    DigitStringApiAcceptable(req);
    ApiAcceptedIff(req);
  }

  /** backend/recipes/api accepts a digit-string amount. */
  lemma DigitStringRecipesApi(req: Request)
    requires DigitStringWrite(req)
    ensures RecipesApiValidate(req) == Accepted
  {
    DigitStringAmount(req.body.ingredients.value[0].amount);
    DigitStringBody(req);
    RecipesApiAcceptedIff(req);
  }

  /** backend/recipes refuses a digit-string amount. */
  lemma DigitStringRecipes(req: Request)
    requires DigitStringWrite(req)
    ensures RecipesValidate(req) == Rejected(map[IngredientsField := AmountBelowOne])
  {
    DigitStringAmount(req.body.ingredients.value[0].amount);
    DigitStringBody(req);
    assert RecipesLoop(req.body.ingredients.value, {}) == Some(AmountBelowOne);
  }
}
